=== FILE: README.md ===
# Inventory manager: a Dafny model

This project models the decision logic of the inventory manager, a small web shop with an admin side. The model covers:

- **Customer cart** (`cart.dfy`, frontend/customer.js):
  - adding, merging, changing, removing and clearing cart lines, each with its quantity bounds;
  - the one-line-per-product invariant and the badge count;
  - the order request built from the cart;
  - the product search filter.
- **Admin dashboard** (`dashboard.dfy`, frontend/script.js):
  - the three-way stock status;
  - the low-stock counter and alert panel;
  - the add/edit item form, with its coercion, validation and PUT-or-POST choice;
  - the availability-toggle body.
- **HTML escaping** (`html.dfy`): the `escapeHtml` helper, which customer.js and script.js share.
- **Item table** (`item_table.dfy`, backend/server.js): the live routes over the SQLite `items` table. The table is held as a sequence of rows plus the AUTOINCREMENT counter. The model covers:
  - create with its validation and defaults;
  - update by id and delete by id;
  - the listing ordered newest first;
  - the low-stock query;
  - the distinct sorted categories;
  - the start-up sample rows.
- **Sessions and page access** (`auth.dfy`, frontend/auth.js):
  - the two storage slots;
  - login, registration and logout;
  - the redirect rules of `checkAuthStatus` and of the page-load guard;
  - the header and 401 rules of authenticated requests.
- **React admin page** (`react_app.dfy`, frontend/src/App.js):
  - form state, editing, resetting and the numeric inputs;
  - the submission, followed into the item table;
  - its copy of the stock classification.

Shared vocabulary is in `common.dfy`. It covers:

- optional values;
- JavaScript NaN and the `|| 0` coercions;
- `trim`, `toLowerCase`, `includes`, `endsWith`;
- decimal `parseInt`, and number-to-text with its round trip.

`sorting.dfy` holds the two orders the SQL queries ask for:

- rows by an integer column;
- text by SQLite's BINARY collation, which is code-point order.

Everything is functional: immutable records, and state changes as pure functions. Browser effects are represented as values:

- local storage is a two-slot `Session`;
- a page redirect is the name of the target page;
- a request is the method, URL and body it would carry;
- a server answer is a parameter.

## Model

| member | source | states |
|---|---|---|
| Common.Filter | frontend/script.js:282-284 | `filter` keeps exactly the elements that pass the test, each as often as it occurs, in their original order |
| Common.FilterCount | frontend/script.js:282-284 | the `.length` of a filter is the number of positions whose element passes the test |
| Common.LowerChar | frontend/customer.js:151 | `toLowerCase` on one character: ASCII, Latin-1, the main Greek and Cyrillic capitals move 32 up, Ѐ–Џ 80 up, the accented Greek capitals to their accented small letters, Ÿ to ÿ, and the Latin Extended-A and Cyrillic pairs to the following code point; small letters, digits and whitespace are unchanged; ASCII stays ASCII |
| Common.LowerCharIdempotent | frontend/customer.js:151 | a lowered character is not changed by lowering it again |
| Common.ToLower | frontend/customer.js:151 | `toLowerCase` keeps the length and lowers each character on its own |
| Common.ToLowerIdempotent | frontend/customer.js:151-155 | lowering an already lowered search term changes nothing |
| Common.ParseInt | frontend/customer.js:191 | `parseInt` of decimal text: skip leading whitespace, take an optional sign, read the leading digits, NaN when there are none. Its contract is carried by Common.ParseIntEmpty, Common.ParseIntDigits and Common.ParseIntOfIntToString |
| Common.IntOrZero | frontend/script.js:349-351 | `parse(...) \|\| 0` never yields NaN: NaN becomes 0, any number stays itself |
| Common.RealOrZero | frontend/script.js:350 | `parseFloat(...) \|\| 0` maps NaN to 0.0 and keeps every number |
| Common.Trim | frontend/script.js:346-348 | the trimmed text occurs inside the input at an offset with only whitespace before it and only whitespace after it, and has no whitespace at either end; so only the surrounding whitespace is removed. It is empty exactly when the input is all whitespace |
| Common.TrimIdempotent | frontend/script.js:346-348 | trimming already trimmed text changes nothing |
| Common.TrimBlankOnlyIfWhitespace | frontend/script.js:346-348 | if trimming leaves nothing, every character of the input was whitespace |
| Common.TrimBlankIfWhitespace | frontend/script.js:346-348 | an input of nothing but whitespace trims to nothing |
| Common.ParseIntEmpty | frontend/customer.js:191 | `parseInt` of an empty field is NaN |
| Common.ParseIntDigits | frontend/customer.js:191 | a field made only of decimal digits parses to the value of those digits |
| Common.ParseIntOfIntToString | frontend/script.js:326-328 | a number written into a form field reads back through `parseInt` as the same number |
| Common.IntOrZeroOfIntToString | frontend/script.js:349-351 | the `parseInt(...) \|\| 0` coercion is the identity on a number's own decimal text |
| Common.IncludesEmpty | frontend/customer.js:155-156 | an empty search term is included in every name |
| Common.EndsWithIncludes | frontend/auth.js:143 | a path ending in a page name also contains it |
| Common.EndsWith | frontend/auth.js:143 | `endsWith`: the last characters of the text are the suffix; Common.EndsWithIncludes relates it to `includes` |
| Common.Includes | frontend/customer.js:155-156 | `includes`: the term occurs somewhere in the text; Common.IncludesAt states the offset, Common.IncludesEmpty the empty term |
| Common.NatToString | frontend/script.js:326-328 | a number written into a form field as decimal text is non-empty and all digits; Common.ParseIntOfIntToString reads it back |
| Common.IntToString | frontend/script.js:326-328 | the text of a number starts with `-` exactly when the number is negative and is otherwise digits; Common.ParseIntOfIntToString reads it back |
| Common.IncludesAt | frontend/customer.js:155-156 | `includes` means an occurrence at a concrete offset |
| Html.ReplaceChain | frontend/script.js:523-528 | the five global replaces in source order; Html.ReplaceChainIsEscape proves it equal to the per-character escape |
| Html.EscapeHtml | frontend/script.js:521-529 | falsy input gives ''; otherwise the result is the per-character escape and holds no raw `<`, `>`, `"` or `'`. customer.js:439-447 is the same function |
| Html.ReplaceChainIsEscape | frontend/script.js:523-528 | because `&` is replaced first, the chain of five global replaces equals the per-character entity map, so no entity is escaped twice |
| Html.ReplaceChainChar | frontend/script.js:524-528 | on a single character the chain yields exactly that character's entity |
| Html.EscapeCharsHasNoSpecials | frontend/script.js:521-529 | escaped text never contains `<`, `>`, `"` or `'` |
| Html.EntityHasNoSpecials | frontend/script.js:524-528 | no replacement entity contains `<`, `>`, `"` or `'` |
| Html.ReplaceAllAppend | frontend/script.js:524 | a global replace of one character acts on a concatenation piecewise |
| Html.ReplaceAll | frontend/script.js:524 | `replace(/c/g, rep)`: every occurrence of the character is replaced; Html.ReplaceAllAppend and Html.ReplaceChainIsEscape carry its contract |
| Html.ReplaceChainAppend | frontend/script.js:523-528 | the whole replace chain acts on a concatenation piecewise |
| Sorting.SortBy | backend/server.js:293 | `ORDER BY` on an integer column: ascending, and a permutation of its input |
| Sorting.LexLessTransitive | backend/server.js:350 | BINARY collation order is transitive |
| Sorting.LexLess | backend/server.js:350 | BINARY collation for `ORDER BY category`: code-point order, a proper prefix first; Sorting.LexLessIrreflexive, Sorting.LexLessTransitive and Sorting.LexLessTotal show it a strict total order |
| Sorting.LexLessTotal | backend/server.js:350 | any two distinct texts are ordered one way or the other |
| Sorting.LexLessIrreflexive | backend/server.js:350 | no text sorts before itself |
| Sorting.StrictlySortedDistinct | backend/server.js:350 | a strictly increasing list has no repeats |
| Sorting.InsertDistinct | backend/server.js:350 | adding a text keeps the list strictly sorted and adds exactly that text, unless it is already present |
| CustomerCart.CartCount | frontend/customer.js:416 | the badge total; when every line wants at least one unit it is at least the number of lines, and positive for a non-empty cart |
| CustomerCart.QuantityGuardAsWritten | frontend/customer.js:193 | the guard exactly as written: a number below 1 or above the stock fails it, and NaN, for which both comparisons are false, passes it |
| CustomerCart.FindIndex | frontend/customer.js:198 | `findIndex` gives -1 exactly when no line has the id; otherwise it gives the first line with it |
| CustomerCart.EmptyQuantityFieldPassesGuard | frontend/customer.js:191-196 | an emptied quantity field parses to NaN, and the guard as written lets it through |
| CustomerCart.AddToCart | frontend/customer.js:190-213 | a quantity outside 1..stock (NaN included) is refused; a product not yet in the cart gets one new line at the end with that quantity; a success adds at most one line |
| CustomerCart.AddToCartMergesExisting | frontend/customer.js:198-207 | a product already in the cart has its line's quantity raised by the amount asked, and no line is added; if the sum passes the stock the add is refused |
| CustomerCart.RemoveFromCart | frontend/customer.js:300-301 | `splice(index, 1)` drops only that line and keeps the rest in order |
| CustomerCart.UpdateCartQuantityAsWritten | frontend/customer.js:280-294 | a new quantity below 1 removes the line; one above the line's stored stock is refused; otherwise only that line's quantity changes |
| CustomerCart.UpdateCartQuantity | frontend/customer.js:280-294 | the same update with the stock check applied only to increases; lowering is always accepted |
| CustomerCart.ClearCart | frontend/customer.js:307-308 | the cleared cart is valid and its badge shows 0 |
| CustomerCart.StaleSnapshotRefusesDecrement | frontend/customer.js:289-292 | after a merge past the stored stock figure, the as-written update refuses even a decrement, which the corrected one accepts |
| CustomerCart.CartCountAppend | frontend/customer.js:416 | the badge count of two carts put together is the sum of their counts |
| CustomerCart.CartCountUpdate | frontend/customer.js:416 | changing one line's quantity moves the badge by the same amount |
| CustomerCart.CartCountRemove | frontend/customer.js:415-417 | removing a line lowers the badge by that line's quantity |
| CustomerCart.AddToCartCount | frontend/customer.js:198-213 | a successful add raises the badge by exactly the quantity added |
| CustomerCart.AddToCartKeepsValid | frontend/customer.js:193-213 | adding keeps one line per product, each wanting at least one unit |
| CustomerCart.RemoveFromCartKeepsValid | frontend/customer.js:300-305 | removing keeps the cart invariant |
| CustomerCart.UpdateCartQuantityKeepsValid | frontend/customer.js:284-294 | both versions of the update keep the cart invariant |
| CustomerCart.DecrementAlwaysAccepted | frontend/customer.js:282-294 | with the corrected update, lowering a line by one always succeeds and lowers the badge by one |
| CustomerCart.OrderLines | frontend/customer.js:339-342 | one order line per cart line, in cart order, with the product id and the wanted quantity |
| CustomerCart.ShippingComplete | frontend/customer.js:327-328 | every one of the six shipping fields is non-empty; CustomerCart.OrderRequest refuses the order otherwise |
| CustomerCart.OrderRequest | frontend/customer.js:326-344 | a missing shipping field is reported first, then an empty cart; otherwise the body mirrors the cart and carries the shipping details |
| CustomerCart.OrderLinesMatchCount | frontend/customer.js:338-344 | the units ordered equal the units the badge shows |
| CustomerCart.PlaceOrder | frontend/customer.js:315-365 | the order counts as placed exactly when the request is valid and the response is ok with a JSON body carrying `order`; the cart is emptied only then, otherwise it is kept |
| CustomerCart.PlacedOrderResetsBadge | frontend/customer.js:339-360 | after a placed order the badge shows 0, and the order requested exactly the units the badge showed before |
| CustomerCart.SearchMatch | frontend/customer.js:155-156 | the name is tested first; only when it misses is the description consulted, and a null description then throws |
| CustomerCart.MatchesFilter | frontend/customer.js:155-158 | a product passes when its name or description holds the lower-cased term and the category is empty or equal |
| CustomerCart.FilterProducts | frontend/customer.js:150-162 | the filter throws exactly when some product's name misses the term and its description is null. Otherwise the result is an order-preserving subsequence of the catalogue holding every matching product as often as it occurs, and nothing else |
| CustomerCart.SearchFoldsLatinLetters | frontend/customer.js:151-155 | lower-casing is not limited to ASCII: a search for `ä` finds a product named with `Ä` |
| CustomerCart.SearchFoldsGreekAccents | frontend/customer.js:151-155 | accented Greek capitals are lowered: a search for `ά` finds a product named `Άλφα` |
| CustomerCart.NullDescriptionAbortsFilter | frontend/customer.js:155-156 | one product with a null description whose name misses the term makes the whole filter throw |
| CustomerCart.FilterWithoutCriteriaKeepsAll | frontend/customer.js:150-162 | an empty search with no category shows the whole catalogue |
| Dashboard.GetStockStatus | frontend/script.js:310-314 | out of stock exactly at quantity 0, low stock when non-zero and at or below the minimum, in stock otherwise; exactly one applies |
| Dashboard.IsLowStock | frontend/script.js:294 | `item.quantity <= item.min_stock`, shared by the counter and the alert; Dashboard.CounterMatchesAlerts and Dashboard.StatusAgreesWithAlert relate it to the status |
| Dashboard.LowStockItems | frontend/script.js:293-295 | the alert filter is an order-preserving subsequence of the list holding every item at or below its minimum as often as it occurs, and nothing else; its length is the number of low positions |
| Dashboard.UpdateStats | frontend/script.js:276-287 | no list gives 0 and 0; otherwise the total is the list length and the low-stock count is the number of positions holding a low item, so it is 0 exactly when no item is low |
| Dashboard.CheckLowStock | frontend/script.js:289-308 | the panel is shown exactly when some item is low, and then lists the low items in list order, each as often as it occurs |
| Dashboard.CounterMatchesAlerts | frontend/script.js:282-297 | the panel shows exactly when the counter is positive, and then lists as many items as the counter counts |
| Dashboard.StatusAgreesWithAlert | frontend/script.js:282-284 | with a non-negative minimum, an item is marked out-of-stock or low-stock exactly when it is counted as low |
| Dashboard.OutOfStockIsAlerted | frontend/script.js:293-297 | with a non-negative minimum, an out-of-stock item always appears in the alert panel |
| Dashboard.FormPayload | frontend/script.js:345-352 | the name, description and category sent are the trimmed fields; a parsed price or number is sent as parsed and NaN becomes 0, so no number is NaN; a trimmed name or category is empty exactly when the field is all whitespace |
| Dashboard.HandleSubmit | frontend/script.js:342-367 | refused, with the required-fields message, exactly when the name or category is blank; otherwise a PUT to the edited item's URL when editing, else a POST to the collection |
| Dashboard.ShowModal | frontend/script.js:316-334 | opening on an item records its id and fills the form from it, a null description as `''`; opening for a new item records no id and resets the form |
| Dashboard.HideModal | frontend/script.js:336-340 | closing forgets the edited item and resets the form |
| Dashboard.EditWithoutChangesKeepsNumbers | frontend/script.js:322-367 | opening an item and saving it untouched, when the save passes the name and category check, sends back its own quantity, price and minimum, to its own URL |
| Dashboard.SubmitAfterHidePosts | frontend/script.js:336-367 | after the modal is closed, the next save that passes the field check is a POST to the items URL, creating an item |
| Dashboard.TogglePayload | frontend/script.js:445-453 | the PUT body carries the given availability, and applying it changes nothing else in the item |
| ItemTable.Bind | backend/server.js:325-327 | a missing or null body field is bound as SQL NULL; a value is bound as itself |
| ItemTable.CreateAccepted | backend/server.js:305-306 | the route's own check: truthy name and category, quantity and price present; ItemTable.CreateItem gives 400 exactly when it fails |
| ItemTable.ViolatesNotNull | backend/server.js:240-244 | some NOT NULL column (name, category, quantity, price) would be bound as NULL; ItemTable.UpdateItem fails with 500 on a matching row exactly then |
| ItemTable.DescriptionOrEmpty | backend/server.js:311 | a falsy description is stored as '' |
| ItemTable.MinStockOrZero | backend/server.js:311 | a missing or falsy `min_stock` is stored as 0 |
| ItemTable.MaxId | backend/server.js:239 | the largest id in use bounds every id and is one of them, or 0 for an empty table |
| ItemTable.NextId | backend/server.js:239 | the AUTOINCREMENT id is above the counter and above every id present |
| ItemTable.CreateItem | backend/server.js:302-319 | a falsy name or category, or a missing quantity or price, gives 400 and no change; a null quantity or price gives 500 and no change; otherwise exactly one row is appended and the others are untouched. The new row has a fresh id above every earlier one, the body's fields, and the description and `min_stock` defaults |
| ItemTable.CreateKeepsValid | backend/server.js:238-247 | creating keeps ids distinct, positive and within the counter |
| ItemTable.DeletedIdNotReused | backend/server.js:239 | an id freed by a delete is never handed out again |
| ItemTable.Assign | backend/server.js:325 | an updated row takes the six supplied fields and keeps its id and time stamp |
| ItemTable.AssignMatching | backend/server.js:325-327 | rows with the given id are assigned, all others are left as they were |
| ItemTable.UpdateItem | backend/server.js:321-335 | success is reported when no row matches, and then nothing changes; a missing required field fails with 500 only when a row matches; otherwise only the matching row changes |
| ItemTable.UpdateKeepsValid | backend/server.js:321-335 | updating keeps the table invariant |
| ItemTable.KeepOthers | backend/server.js:340 | `DELETE ... WHERE id = ?` keeps exactly the other rows, in order, each as often as it is stored, whether or not ids are distinct |
| ItemTable.DeleteItem | backend/server.js:337-347 | success is always reported; exactly the rows with that id go, the rest keep their order and their multiplicities, and the counter is kept |
| ItemTable.DeleteKeepsValid | backend/server.js:337-347 | deleting keeps the table invariant |
| ItemTable.SubsequenceMembers | backend/server.js:340 | rows kept by a delete were rows of the table |
| ItemTable.SubsequenceKeepsDistinct | backend/server.js:340 | rows kept by a delete still have distinct ids |
| ItemTable.ListItems | backend/server.js:282-290 | the listing is a permutation of the rows, newest first |
| ItemTable.ListItemsHasAllRows | backend/server.js:283 | the listing holds every row and nothing else |
| ItemTable.LowStockRows | backend/server.js:292-300 | the answer is a permutation of the rows at or below a non-NULL minimum, each as often as it is stored, in ascending quantity |
| ItemTable.LowStockRow | backend/server.js:293 | `quantity <= min_stock` in SQL: a NULL minimum matches nothing; ItemTable.LowStockRows and ItemTable.LowStockRowsCount filter by it |
| ItemTable.LowStockRowsCount | backend/server.js:293 | the answer has exactly one entry per stored low-stock row |
| ItemTable.Categories | backend/server.js:349-357 | the answer is strictly sorted in BINARY collation and holds exactly the categories present |
| ItemTable.CategoriesOnce | backend/server.js:350 | each category appears once |
| ItemTable.Seed | backend/server.js:253-270 | sample rows go only into an empty table; a non-empty table is left alone |
| ItemTable.SeedFreshDatabase | backend/server.js:253-266 | a brand-new database gets Laptop, Mouse and Notebook with ids 1, 2 and 3, their quantities (15, 45, 8) and minimums (5, 10, 15) |
| ItemTable.SeedUnfolds | backend/server.js:263-264 | seeding an empty table is the three inserts, in the order the samples are listed |
| ItemTable.SamplesAccepted | backend/server.js:257-261 | every sample has a non-empty name and category, a quantity and a price |
| ItemTable.SeedLowStock | backend/server.js:257-261 | among the samples only the notebook (8 in stock, minimum 15) is low |
| ItemTable.SampleLowStock | backend/server.js:257-261 | in any table holding exactly the three samples' stock figures, the low-stock query returns the notebook row and nothing else |
| Auth.RoleHome | frontend/auth.js:76-82 | administrators belong on the dashboard, every other role in the shop |
| Auth.OnLoginPage | frontend/auth.js:143 | the path ends in `index.html` or is `/` or empty |
| Auth.OnProtectedPage | frontend/auth.js:154 | the path contains `dashboard.html` or `customer.html`; Auth.LogoutLocksProtectedPages uses it |
| Auth.IsLoggedIn | frontend/auth.js:180-182 | a token entry exists; an empty token counts |
| Auth.RequireAuth | frontend/auth.js:199-205 | it allows exactly when a token entry exists, and otherwise sends the browser to the login page |
| Auth.Logout | frontend/auth.js:193-197 | both storage entries are removed and the browser goes to the login page |
| Auth.HandleLogin | frontend/auth.js:47-87 | a rejected login changes nothing and shows the error; an accepted one stores the token and user and redirects by role |
| Auth.HandleRegister | frontend/auth.js:89-132 | a password mismatch sends no request; otherwise the form's fields are posted, and only a success copies the e-mail into the login form |
| Auth.CheckAuthStatus | frontend/auth.js:134-160 | the function on its own: a signed-in visitor is sent from the login page to their home page and otherwise stays; anyone else is sent from a protected page to the login page. Start-up calls it only as Auth.AuthManagerInit states |
| Auth.AuthManagerInit | frontend/auth.js:234-237 | nothing runs on a page without the login or registration form; on one with it, `init` runs the status check only on paths that neither contain `index.html` nor are `/` (auth.js:7-13) |
| Auth.InitRedirectsSignedInOnlyFromEmptyPath | frontend/auth.js:10-12 | whatever page holds the form, the check `init` runs can move a signed-in visitor only from the empty path |
| Auth.PageGuard | frontend/auth.js:240-263 | off the login page, no token sends the visitor to the login page; an admin in the shop goes to the dashboard; a customer on the dashboard goes to the shop; other roles stay |
| Auth.GuardSendsToRoleHome | frontend/auth.js:254-259 | the guard only ever moves a signed-in user to their own home page |
| Auth.LoginLandingIsStable | frontend/auth.js:72-82 | the page a successful login lands on is not redirected again by the page-load guard; the status-check part describes the function, which that page (holding no login form) never calls |
| Auth.LogoutLocksProtectedPages | frontend/auth.js:193-196 | after logout, every page other than the login page sends the visitor to the login page, and `requireAuth` refuses |
| Auth.EmptyTokenSplitsTheChecks | frontend/auth.js:141-156 | an empty stored token passes `isLoggedIn`, but the `checkAuthStatus` function, called on the dashboard path, treats it as signed out; the page itself never calls it there |
| Auth.RequestHeaders | frontend/auth.js:207-216 | without caller headers, JSON content type is set and the Bearer header is present exactly when the token is truthy; caller headers replace the defaults wholesale |
| Auth.AuthenticatedResponse | frontend/auth.js:218-230 | a 401 logs out and fails with the session-expired message; any other status is handed back unchanged |
| Auth.UnauthorizedLocksOut | frontend/auth.js:221-224 | after a 401, `requireAuth` refuses, every page but the login page sends the visitor to it, and the next request carries no credential |
| Auth.LoginSetsBearer | frontend/auth.js:72-73 | after a login with a non-empty token, requests carry `Bearer` and that token |
| Auth.LogoutDropsBearer | frontend/auth.js:193-196 | after logout, requests carry no `Authorization` header |
| Auth.EmptyTokenSendsNoBearer | frontend/auth.js:180-182 | an empty stored token counts as logged in, yet requests go out without a credential |
| Auth.RegisterThenLogin | frontend/auth.js:99-126 | a successful registration pre-fills the login form with exactly the registered e-mail, after a body whose password both fields agreed on; a rejection pre-fills nothing and shows the server's error |
| ReactApp.HandleEdit | frontend/src/App.js:108-119 | the form gets the row's six fields, with a NULL description as ''; the row is marked as being edited and the form is shown |
| ReactApp.ResetForm | frontend/src/App.js:135-146 | empty form, nothing being edited, form hidden |
| ReactApp.OnQuantityInput | frontend/src/App.js:242 | the quantity becomes the parsed number, or 0 when the text does not parse; nothing else changes |
| ReactApp.OnPriceInput | frontend/src/App.js:254 | the price becomes the parsed number, or 0 when it does not parse; nothing else changes |
| ReactApp.OnMinStockInput | frontend/src/App.js:265 | the minimum becomes the parsed number, or 0 when it does not parse; nothing else changes |
| ReactApp.RequestBody | frontend/src/App.js:80-84 | every form field is sent as present, with a NULL minimum sent as null |
| ReactApp.SubmitRequest | frontend/src/App.js:78-87 | a PUT to the edited row's id exactly when a row is being edited, else a POST; the body is the form |
| ReactApp.AfterSubmit | frontend/src/App.js:88-105 | the form is reset after a successful save and kept after a failure |
| ReactApp.GetStockStatus | frontend/src/App.js:148-152 | quantity 0 is out of stock; otherwise low exactly when the quantity is at or below the minimum and in stock exactly when above it, a NULL minimum counting as 0 |
| ReactApp.StockStatusAgrees | frontend/src/App.js:148-152 | the React page and the dashboard classify stock identically; a NULL minimum compares as 0 |
| ReactApp.EditAndSaveUnchangedIsNoOp | frontend/src/App.js:108-119 | editing a stored row whose description is set and saving it untouched leaves the table exactly as it was |
| ReactApp.EditAndSaveFillsNullDescription | frontend/src/App.js:110-113 | saving a row whose description is NULL stores '' in its place |
| ReactApp.EmptyFormIsRefused | frontend/src/App.js:135-146 | were the reset form's POST sent, the server would answer 400 and create nothing (the browser's `required` check stops it first) |

## Left out

- DOM rendering is not modelled. This covers `innerHTML` markup, alerts and confirms, loading spinners, tab switching, `showMessage` and event binding. It is presentation with no decision in it.
- Network I/O is not modelled: `fetch`, `axios` and response JSON parsing. The server's answer is a parameter.
  - A login or registration reply is `LoginReply` or `RegisterReply`.
  - An order response is an `OrderReply`: a non-ok status, an unreadable body, or a JSON body with or without `order`.
  - An authenticated response is its status code.
- Local storage is a record, not a store. `saveCart` persistence is left out, and the `user` slot holds the parsed user rather than its JSON text.
- `setTimeout` delays and `window.location` assignments are not modelled. A redirect is the target page's name.
- `parseFloat` is not modelled. A price field is given as its parsed value, `Parsed<real>`.
- `parseInt` is modelled for decimal text only, because number inputs never hold a radix prefix.
- Common.ParseIntDigits: `parseInt` is stated only for all-digit text (and, in Common.ParseIntEmpty, for empty text). The body of Common.ParseInt also skips leading whitespace, takes a sign and stops at the first non-digit, but no contract states those cases. JavaScript's `parseInt` also rounds to a double, so for digit text above 2^53 it gives the nearest double (`parseInt("9007199254740993")` is 9007199254740992), not the exact value stated here.
- Common.LowerChar: lowers the capitals that have a one-letter small form in Basic Latin, Latin-1, Latin Extended-A, Greek U+0386–U+03EF and Cyrillic U+0400–U+04FF. `İ` (two characters in JavaScript) and `Σ` (position-dependent in JavaScript) stay unchanged. So do the Greek capitals outside that range (`Ͱ`, `Ͳ`, `Ͷ`, `Ϳ`, `ϴ`, `Ϸ`, `Ϲ`, `Ϻ`, `Ͻ`–`Ͽ`), Latin Extended-B and later Latin blocks, the Cyrillic Supplement from U+0500, and every other script, although `toLowerCase` would lower them.
- Common.ToLower: lowers character by character with Common.LowerChar, so it leaves the same capitals unchanged as that line lists.
- Common.IntToString: the text is `-` and digits for every integer. In JavaScript `toString` writes exponent form from 1e21 on (`1e+21`), and integers above 2^53 are not held exactly.
- Common.NatToString: integers are unbounded and written in plain decimal. JavaScript numbers are doubles: `toString` switches to exponent form from 1e21 on, and integers above 2^53 lose precision.
- Common.ParseIntOfIntToString: the round trip is proved for every integer. In JavaScript it holds only for integers of magnitude below 1e21 that a double represents exactly; from 1e21 on `toString` writes `1e+21` and `parseInt` reads that back as 1.
- Common.IntOrZeroOfIntToString: the same bound as Common.ParseIntOfIntToString applies.
- Dashboard.EditWithoutChangesKeepsNumbers: the same bound applies; in script.js a quantity or minimum of 1e21 or more would come back from the form as 1.
- Integers are exact at every size. The quantities, counts, sums and ids that JavaScript holds as doubles are exact only up to 2^53, so no contract here covers larger values as JavaScript computes them.
- Auth.AuthManagerInit: the form test of auth.js:235 is the `hasAuthForm` parameter. Auth.CheckAuthStatus, Auth.LoginLandingIsStable and Auth.EmptyTokenSplitsTheChecks state facts about the status-check function on any path, including paths whose pages never call it.
- Price arithmetic is not modelled: totals, `toFixed` and floating-point rounding. Prices are `real` and are only copied.
- Server setup is not modelled: Express, CORS, static files, the health check, logging and connection handling.
- The commented-out draft server at the top of backend/server.js is not modelled.
- Driver errors other than the NOT NULL constraint are not modelled, for example a locked database.
- SQLite type affinity of body values is not modelled. Each body field is taken to be of its column's JSON type.
- A path id is given as the integer SQLite converts it to, or None when it does not convert.
- AUTOINCREMENT exhaustion at 2^63-1 is not modelled.
- `created_at` is an integer time stamp supplied by the caller. SQLite's `CURRENT_TIMESTAMP` text, with one-second resolution, is not modelled.
- Product and item ids stand for the `_id` field that customer.js and script.js read. The live table exposes `id` instead. Whether these pages can talk to the live server is not modelled.
- The `/orders` and `/auth` endpoints those pages call are not part of backend/server.js. Their answers are therefore parameters.
- Dashboard.Item holds `min_stock` as a number. A NULL `min_stock` reaching script.js compares as 0 in JavaScript, which is what the dashboard then shows. `ReactApp.GetStockStatus` models that case explicitly.
- These parts of the pages are not modelled: product details, order history, order status updates, item deletion from the dashboard, the item and category loaders, and the React fetch helpers. They only move data between the server and the screen.
- The React page's text inputs store the value as typed. They are not modelled separately.
- HTML constraint validation is not modelled. That covers `required` on the name, category, quantity and price inputs (App.js:211, :231, :243, :255) and `min="0"` on the numbers (App.js:244, :256, :266). The browser refuses such a form before `handleSubmit` runs, so ReactApp.EmptyFormIsRefused states what the server would do, not what the page sends.

## Findings

| source | as written | input that shows it | evidently intended | confidence | as-written member | corrected member |
|---|---|---|---|---|---|---|
| frontend/customer.js:191-196 | `quantity < 1 \|\| quantity > product.quantity` guards `parseInt` of the quantity field | the field emptied: `parseInt("")` is NaN, both comparisons are false, and a line with a NaN quantity is added | a quantity that is not a number is refused like any out-of-range one | high; not executed | CustomerCart.EmptyQuantityFieldPassesGuard | CustomerCart.AddToCart |
| frontend/customer.js:289-292 | the new quantity is compared with `item.quantity`, the stock copied into the line when the product was first added, also when lowering | add 5 pens with 5 in stock, add 3 more after a restock to 10 (the line now wants 8 against a recorded 5), then press minus: 7 > 5 is refused | lowering a line's quantity is always allowed; only increases are checked against stock | medium; not executed | CustomerCart.UpdateCartQuantityAsWritten, CustomerCart.StaleSnapshotRefusesDecrement | CustomerCart.UpdateCartQuantity, CustomerCart.DecrementAlwaysAccepted |

=== FILE: auth.dfy ===
/** Sessions and page access (frontend/auth.js): the two storage slots
    `token` and `user`, login and registration, logout, the redirect rules
    of `checkAuthStatus` and of the page-load guard, and the header and 401
    rule of authenticated requests. A redirect is the page name the browser
    is sent to. */
module Auth {
  import opened Common

  datatype User = User(name: string, email: string, role: string)

  /** The `token` and `user` entries of local storage; None when the key is absent. */
  datatype Session = Session(token: Option<string>, user: Option<User>)

  const LoginPage: string := "index.html"
  const AdminPage: string := "dashboard.html"
  const CustomerPage: string := "customer.html"

  /** Where a user of `role` belongs: administrators on the dashboard,
      everybody else in the shop. */
  function RoleHome(role: string): (page: string)
    ensures role == "admin" <==> page == AdminPage
    ensures page == AdminPage || page == CustomerPage
  {
    if role == "admin" then AdminPage else CustomerPage
  }

  // ---------------------------------------------------------------------------
  // The Auth helpers

  /** `Auth.isLoggedIn()`: a token entry exists (an empty one counts). */
  predicate IsLoggedIn(s: Session)
  {
    s.token.Some?
  }

  /** What `Auth.requireAuth()` returns and where it sends the browser. */
  datatype Guarded = Guarded(allowed: bool, redirect: Option<string>)

  function RequireAuth(s: Session): (r: Guarded)
    ensures r.allowed <==> s.token.Some?
    ensures r.redirect.Some? <==> !r.allowed
    ensures r.redirect.Some? ==> r.redirect.value == LoginPage
  {
    if !IsLoggedIn(s) then Guarded(false, Some(LoginPage)) else Guarded(true, None)
  }

  /** `Auth.logout()`: both entries removed, back to the login page. */
  datatype Transition = Transition(session: Session, redirect: Option<string>)

  function Logout(s: Session): (r: Transition)
    ensures r.session.token.None? && r.session.user.None?
    ensures r.redirect == Some(LoginPage)
  {
    Transition(Session(None, None), Some(LoginPage))
  }

  // ---------------------------------------------------------------------------
  // Login and registration

  /** The login endpoint's answer: an error message, or a token and the user. */
  datatype LoginReply = LoginRejected(error: string) | LoginAccepted(token: string, user: User)

  datatype LoginOutcome = LoginOutcome(session: Session, message: string, redirect: Option<string>)

  /** `handleLogin`: on success store both entries and go to the role's
      home page; on failure show the error and change nothing. */
  function HandleLogin(s: Session, reply: LoginReply): (r: LoginOutcome)
    ensures reply.LoginRejected? ==> r.session == s && r.redirect.None? && r.message == reply.error
    ensures reply.LoginAccepted? ==> r.session == Session(Some(reply.token), Some(reply.user))
    ensures reply.LoginAccepted? ==> r.redirect == Some(RoleHome(reply.user.role))
  {
    match reply
    case LoginRejected(error) => LoginOutcome(s, error, None)
    case LoginAccepted(token, user) =>
      LoginOutcome(Session(Some(token), Some(user)), "Login successful! Redirecting...", Some(RoleHome(user.role)))
  }

  datatype RegisterForm = RegisterForm(
    name: string, email: string, password: string, confirmPassword: string, role: string)

  /** The body posted to the register endpoint. */
  datatype RegisterBody = RegisterBody(name: string, email: string, password: string, role: string)

  datatype RegisterReply = RegisterRejected(error: string) | Registered

  /** What registration shows: the request it sent (if any), the message,
      and the e-mail copied into the login form after a success. */
  datatype RegisterOutcome = RegisterOutcome(sent: Option<RegisterBody>, message: string, loginEmail: Option<string>)

  const PasswordMismatchMessage: string := "Passwords do not match"

  /** `handleRegister`: a password mismatch stops before any request; the
      server's answer is only consulted when a request was sent. */
  function HandleRegister(form: RegisterForm, reply: RegisterReply): (r: RegisterOutcome)
    ensures r.sent.None? <==> form.password != form.confirmPassword
    ensures r.sent.None? ==> r.message == PasswordMismatchMessage && r.loginEmail.None?
    ensures r.sent.Some? ==> r.sent.value.password == form.password && r.sent.value.email == form.email
                             && r.sent.value.name == form.name && r.sent.value.role == form.role
    ensures r.loginEmail.Some? <==> r.sent.Some? && reply.Registered?
    ensures r.loginEmail.Some? ==> r.loginEmail.value == form.email
  {
    if form.password != form.confirmPassword then
      RegisterOutcome(None, PasswordMismatchMessage, None)
    else
      var body := RegisterBody(form.name, form.email, form.password, form.role);
      match reply
      case RegisterRejected(error) => RegisterOutcome(Some(body), error, None)
      case Registered => RegisterOutcome(Some(body), "Registration successful! Please login.", Some(form.email))
  }

  // ---------------------------------------------------------------------------
  // Redirect rules

  /** The paths `checkAuthStatus` and the page-load guard treat as the login page. */
  predicate OnLoginPage(path: string)
  {
    EndsWith(path, LoginPage) || path == "/" || path == ""
  }

  predicate OnProtectedPage(path: string)
  {
    Includes(path, AdminPage) || Includes(path, CustomerPage)
  }

  /** `checkAuthStatus()`: a signed-in visitor (truthy token and a user) is
      sent from the login page to their home page; anybody else is sent from
      a protected page to the login page. */
  function CheckAuthStatus(s: Session, path: string): (r: Option<string>)
    ensures Truthy(s.token) && s.user.Some? ==>
              r == if OnLoginPage(path) then Some(RoleHome(s.user.value.role)) else None
    ensures !(Truthy(s.token) && s.user.Some?) ==>
              r == if OnProtectedPage(path) then Some(LoginPage) else None
  {
    if Truthy(s.token) && s.user.Some? then
      if OnLoginPage(path) then Some(RoleHome(s.user.value.role)) else None
    else if OnProtectedPage(path) then Some(LoginPage)
    else None
  }

  /** Page start-up of `AuthManager`: the manager is constructed only on a
      page holding the login or registration form (`hasAuthForm`), and its
      `init()` runs the status check only off the login page, there tested
      with `includes` and `/` alone. */
  function AuthManagerInit(s: Session, path: string, hasAuthForm: bool): (r: Option<string>)
    ensures !hasAuthForm ==> r.None?
    ensures Includes(path, LoginPage) || path == "/" ==> r.None?
    ensures hasAuthForm && !Includes(path, LoginPage) && path != "/" ==> r == CheckAuthStatus(s, path)
  {
    if hasAuthForm && !Includes(path, LoginPage) && path != "/" then CheckAuthStatus(s, path) else None
  }

  /** Because `init` skips every path containing `index.html`, the check it
      runs can send a signed-in visitor to their home page only from the
      empty path. */
  lemma InitRedirectsSignedInOnlyFromEmptyPath(s: Session, path: string, hasAuthForm: bool)
    requires Truthy(s.token) && s.user.Some?
    requires AuthManagerInit(s, path, hasAuthForm).Some?
    ensures path == ""
  {
    if EndsWith(path, LoginPage) {
      EndsWithIncludes(path, LoginPage);
    }
  }

  /** The DOMContentLoaded guard: off the login page, a visitor without a
      token goes to the login page, an administrator in the shop goes to the
      dashboard and a customer on the dashboard goes to the shop. */
  function PageGuard(s: Session, path: string): (r: Option<string>)
    ensures OnLoginPage(path) ==> r.None?
    ensures !OnLoginPage(path) && !IsLoggedIn(s) ==> r == Some(LoginPage)
    ensures (!OnLoginPage(path) && IsLoggedIn(s) && s.user.Some? && s.user.value.role == "admin") ==>
              r == if Includes(path, CustomerPage) then Some(AdminPage) else None
    ensures (!OnLoginPage(path) && IsLoggedIn(s) && s.user.Some? && s.user.value.role == "customer") ==>
              r == if Includes(path, AdminPage) then Some(CustomerPage) else None
    ensures IsLoggedIn(s) && (s.user.None? || s.user.value.role !in {"admin", "customer"}) ==> r.None?
  {
    if OnLoginPage(path) then None
    else if !IsLoggedIn(s) then Some(LoginPage)
    else match s.user
      case None => None
      case Some(user) =>
        if user.role == "admin" && Includes(path, CustomerPage) then Some(AdminPage)
        else if user.role == "customer" && Includes(path, AdminPage) then Some(CustomerPage)
        else None
  }

  /** The guard only ever moves a signed-in user to their own home page. */
  lemma GuardSendsToRoleHome(s: Session, path: string)
    requires IsLoggedIn(s) && s.user.Some?
    requires PageGuard(s, path).Some?
    ensures PageGuard(s, path) == Some(RoleHome(s.user.value.role))
  {
  }

  /** After a successful login with a non-empty token the page the user lands on lets them stay:
      the page-load guard does not redirect, and `checkAuthStatus` would not
      either were it called there (the landing pages hold no login form, so
      start-up never calls it). */
  lemma LoginLandingIsStable(s: Session, token: string, user: User)
    requires token != ""
    ensures var r := HandleLogin(s, LoginAccepted(token, user));
            && PageGuard(r.session, r.redirect.value).None?
            && CheckAuthStatus(r.session, r.redirect.value).None?
  {
    var page := RoleHome(user.role);
    assert !Includes(AdminPage, CustomerPage) by {
      assert AdminPage[..|CustomerPage|][0] != CustomerPage[0];
      assert AdminPage[1..][..|CustomerPage|][0] != CustomerPage[0];
    }
    assert !Includes(CustomerPage, AdminPage);
    assert !EndsWith(page, LoginPage);
  }

  /** After logging out, every protected page sends the visitor to the login page. */
  lemma LogoutLocksProtectedPages(s: Session, path: string)
    requires !OnLoginPage(path)
    ensures PageGuard(Logout(s).session, path) == Some(LoginPage)
    ensures OnProtectedPage(path) ==> CheckAuthStatus(Logout(s).session, path) == Some(LoginPage)
    ensures !RequireAuth(Logout(s).session).allowed
  {
  }

  /** An empty stored token passes `isLoggedIn` and the page-load guard but
      is treated as signed out by `checkAuthStatus`, which uses truthiness;
      this is a statement about the function, which start-up calls only on
      pages holding the login form. */
  lemma EmptyTokenSplitsTheChecks(user: User)
    ensures var s := Session(Some(""), Some(user));
            && IsLoggedIn(s)
            && RequireAuth(s).allowed
            && CheckAuthStatus(s, AdminPage) == Some(LoginPage)
  {
    assert Includes(AdminPage, AdminPage) by {
      assert StartsWith(AdminPage, AdminPage);
    }
  }

  // ---------------------------------------------------------------------------
  // Authenticated requests

  /** The request headers `makeAuthenticatedRequest` uses. Caller-supplied
      headers replace the default set wholesale (the options are spread
      after it). */
  function RequestHeaders(token: Option<string>, callerHeaders: Option<map<string, string>>): (h: map<string, string>)
    ensures callerHeaders.Some? ==> h == callerHeaders.value
    ensures callerHeaders.None? ==> "Content-Type" in h && h["Content-Type"] == "application/json"
    ensures callerHeaders.None? ==> ("Authorization" in h <==> Truthy(token))
    ensures callerHeaders.None? && Truthy(token) ==> h["Authorization"] == "Bearer " + token.value
  {
    if callerHeaders.Some? then callerHeaders.value
    else
      var base := map["Content-Type" := "application/json"];
      if Truthy(token) then base["Authorization" := "Bearer " + token.value] else base
  }

  /** The outcome of an authenticated request: the response's status, or the
      session-expired error after a 401, which also logs the user out. */
  datatype RequestOutcome = RequestOutcome(session: Session, result: Result<int, string>, redirect: Option<string>)

  const SessionExpiredMessage: string := "Session expired. Please login again."

  function AuthenticatedResponse(s: Session, status: int): (r: RequestOutcome)
    ensures status == 401 ==> r.result == Err(SessionExpiredMessage)
    ensures status == 401 ==> r.session == Session(None, None) && r.redirect == Some(LoginPage)
    ensures status != 401 ==> r == RequestOutcome(s, Ok(status), None)
  {
    if status == 401 then
      var out := Logout(s);
      RequestOutcome(out.session, Err(SessionExpiredMessage), out.redirect)
    else RequestOutcome(s, Ok(status), None)
  }

  /** After a 401 the session is over: `requireAuth` refuses and every page
      but the login page sends the visitor back to it. */
  lemma UnauthorizedLocksOut(s: Session, path: string)
    ensures var r := AuthenticatedResponse(s, 401);
            && !RequireAuth(r.session).allowed
            && (!OnLoginPage(path) ==> PageGuard(r.session, path) == Some(LoginPage))
            && RequestHeaders(r.session.token, None) == map["Content-Type" := "application/json"]
  {
  }

  /** After a successful login the next request carries the new token as
      its Bearer credential, provided the token is not empty. */
  lemma LoginSetsBearer(s: Session, token: string, user: User)
    requires token != ""
    ensures var h := RequestHeaders(HandleLogin(s, LoginAccepted(token, user)).session.token, None);
            "Authorization" in h && h["Authorization"] == "Bearer " + token
  {
  }

  /** After logout no request carries a credential. */
  lemma LogoutDropsBearer(s: Session)
    ensures "Authorization" !in RequestHeaders(Logout(s).session.token, None)
  {
  }

  /** An empty stored token counts as logged in, yet requests go out with
      no credential at all. */
  lemma EmptyTokenSendsNoBearer(user: User)
    ensures IsLoggedIn(Session(Some(""), Some(user)))
    ensures "Authorization" !in RequestHeaders(Some(""), None)
  {
  }

  /** A registration that succeeds sends a body whose password both form
      fields agree on, and the login form is then pre-filled with exactly
      the e-mail that was registered; a rejected one pre-fills nothing. */
  lemma RegisterThenLogin(form: RegisterForm, reply: RegisterReply)
    ensures var r := HandleRegister(form, reply);
            && (r.loginEmail.Some? ==> r.sent.Some? && r.loginEmail.value == r.sent.value.email
                                       && r.sent.value.password == form.confirmPassword)
            && (reply.RegisterRejected? ==> r.loginEmail.None? && (r.sent.Some? ==> r.message == reply.error))
  {
  }
}

=== FILE: cart.dfy ===
/** The customer page's shopping cart (frontend/customer.js): a list of
    product copies with the quantity wanted, kept one entry per product,
    its badge count, the order request built from it, and the product
    search filter. */
module CustomerCart {
  import opened Common

  /** A product as the customer page receives it from the catalogue; the
      description is None when the catalogue sends null or leaves it out. */
  datatype Product = Product(
    id: string, name: string, description: Option<string>, category: string,
    quantity: int, price: real)

  /** A cart line: the product as it was when it first entered the cart
      (including its stock figure at that moment), plus the quantity wanted. */
  datatype CartEntry = CartEntry(product: Product, cartQuantity: int)

  type Cart = seq<CartEntry>

  /** No product appears in two cart lines. */
  predicate UniqueIds(cart: Cart)
  {
    forall i, j :: 0 <= i < j < |cart| ==> cart[i].product.id != cart[j].product.id
  }

  /** The cart invariant: one line per product, each wanting at least one unit. */
  predicate ValidCart(cart: Cart)
  {
    UniqueIds(cart) && forall i :: 0 <= i < |cart| ==> cart[i].cartQuantity >= 1
  }

  predicate InCart(cart: Cart, id: string)
  {
    exists i :: 0 <= i < |cart| && cart[i].product.id == id
  }

  /** `cart.findIndex(item => item._id === id)`: the first line for `id`, or -1. */
  function FindIndex(cart: Cart, id: string): (r: int)
    ensures -1 <= r < |cart|
    ensures r == -1 <==> !InCart(cart, id)
    ensures r >= 0 ==> cart[r].product.id == id
    ensures r >= 0 ==> forall k :: 0 <= k < r ==> cart[k].product.id != id
  {
    if cart == [] then -1
    else if cart[0].product.id == id then 0
    else
      var k := FindIndex(cart[1..], id);
      if k == -1 then
        assert forall i :: 1 <= i < |cart| ==> cart[i] == cart[1..][i - 1];
        -1
      else
        assert cart[k + 1] == cart[1..][k];
        k + 1
  }

  /** The badge count: the sum of the wanted quantities. When every line
      wants at least one unit it is at least the number of lines. */
  function CartCount(cart: Cart): (c: int)
    ensures (forall i :: 0 <= i < |cart| ==> cart[i].cartQuantity >= 1) ==> c >= |cart|
    ensures (forall i :: 0 <= i < |cart| ==> cart[i].cartQuantity >= 1) && cart != [] ==> c > 0
  {
    if cart == [] then 0 else cart[0].cartQuantity + CartCount(cart[1..])
  }

  datatype CartError = InvalidQuantity | ExceedsAvailable | ExceedsStockSnapshot

  // ---------------------------------------------------------------------------
  // Adding a product

  /** The quantity guard as `addToCart` writes it, `!(q < 1 || q > stock)`.
      JavaScript comparisons with NaN are false, so NaN passes. */
  predicate QuantityGuardAsWritten(q: Parsed<int>, stock: int)
  {
    !((q.Num? && q.value < 1) || (q.Num? && q.value > stock))
  }

  /** An emptied quantity field parses to NaN, and the guard as written lets
      it through: the cart would receive a line whose quantity is NaN. */
  lemma EmptyQuantityFieldPassesGuard(stock: int)
    ensures ParseInt("").NaN?
    ensures QuantityGuardAsWritten(ParseInt(""), stock)
  {
    ParseIntEmpty();
  }

  /** The intended guard: a number from 1 to the product's stock. */
  predicate QuantityGuard(q: Parsed<int>, stock: int)
  {
    q.Num? && 1 <= q.value <= stock
  }

  /** `addToCart(product)`, where `requested` is `parseInt` of the
      order-quantity field (see `ParseInt`). A wanted
      quantity outside 1..stock is refused; a product already in the cart has
      its line's quantity raised, unless that would pass the stock; a new
      product is appended as one new line. */
  function AddToCart(cart: Cart, product: Product, requested: Parsed<int>): (r: Result<Cart, CartError>)
    ensures !QuantityGuard(requested, product.quantity) ==> r == Err(InvalidQuantity)
    ensures QuantityGuard(requested, product.quantity) && !InCart(cart, product.id)
            ==> r == Ok(cart + [CartEntry(product, requested.value)])
    ensures r.Ok? ==> |r.value| == |cart| || |r.value| == |cart| + 1
  {
    var q := requested;
    if q.NaN? || q.value < 1 || q.value > product.quantity then Err(InvalidQuantity)
    else
      var i := FindIndex(cart, product.id);
      if i > -1 then
        var sum := cart[i].cartQuantity + q.value;
        if sum > product.quantity then Err(ExceedsAvailable)
        else Ok(cart[i := cart[i].(cartQuantity := sum)])
      else Ok(cart + [CartEntry(product, q.value)])
  }

  /** Adding a product that already has a line raises that line's quantity
      and adds no line; if the total would pass the stock, the add is refused. */
  lemma AddToCartMergesExisting(cart: Cart, product: Product, requested: Parsed<int>, i: int)
    requires UniqueIds(cart) && 0 <= i < |cart| && cart[i].product.id == product.id
    requires QuantityGuard(requested, product.quantity)
    ensures var sum := cart[i].cartQuantity + requested.value;
            && (sum > product.quantity ==> AddToCart(cart, product, requested) == Err(ExceedsAvailable))
            && (sum <= product.quantity ==>
                  AddToCart(cart, product, requested) == Ok(cart[i := cart[i].(cartQuantity := sum)]))
  {
    assert FindIndex(cart, product.id) == i;
  }

  // ---------------------------------------------------------------------------
  // Changing and removing lines

  /** `removeFromCart(index)`: the line at `index` goes, the rest keep their order. */
  function RemoveFromCart(cart: Cart, index: int): (r: Cart)
    requires 0 <= index < |cart|
    ensures |r| == |cart| - 1
    ensures forall k :: 0 <= k < index ==> r[k] == cart[k]
    ensures forall k :: index <= k < |r| ==> r[k] == cart[k + 1]
  {
    cart[..index] + cart[index + 1..]
  }

  /** `updateCartQuantity(index, change)` as written: the new quantity is
      checked against the stock figure stored in the line when the product
      was first added, also when the change lowers the quantity. */
  function UpdateCartQuantityAsWritten(cart: Cart, index: int, change: int): (r: Result<Cart, CartError>)
    requires 0 <= index < |cart|
    ensures cart[index].cartQuantity + change < 1 ==> r == Ok(RemoveFromCart(cart, index))
    ensures cart[index].cartQuantity + change >= 1 && cart[index].cartQuantity + change > cart[index].product.quantity
            ==> r == Err(ExceedsStockSnapshot)
    ensures 1 <= cart[index].cartQuantity + change <= cart[index].product.quantity
            ==> r.Ok? && |r.value| == |cart| && r.value[index].product == cart[index].product
                && r.value[index].cartQuantity == cart[index].cartQuantity + change
                && forall k :: 0 <= k < |cart| && k != index ==> r.value[k] == cart[k]
  {
    var n := cart[index].cartQuantity + change;
    if n < 1 then Ok(RemoveFromCart(cart, index))
    else if n > cart[index].product.quantity then Err(ExceedsStockSnapshot)
    else Ok(cart[index := cart[index].(cartQuantity := n)])
  }

  /** `updateCartQuantity(index, change)` with the stock check applied only
      to increases, so that a lower quantity is always accepted. */
  function UpdateCartQuantity(cart: Cart, index: int, change: int): (r: Result<Cart, CartError>)
    requires 0 <= index < |cart|
    ensures cart[index].cartQuantity + change < 1 ==> r == Ok(RemoveFromCart(cart, index))
    ensures change > 0 && cart[index].cartQuantity + change >= 1
            && cart[index].cartQuantity + change > cart[index].product.quantity
            ==> r == Err(ExceedsStockSnapshot)
    ensures change <= 0 ==> r.Ok?
    ensures r.Ok? && cart[index].cartQuantity + change >= 1
            ==> |r.value| == |cart| && r.value[index].product == cart[index].product
                && r.value[index].cartQuantity == cart[index].cartQuantity + change
                && forall k :: 0 <= k < |cart| && k != index ==> r.value[k] == cart[k]
  {
    var n := cart[index].cartQuantity + change;
    if n < 1 then Ok(RemoveFromCart(cart, index))
    else if change > 0 && n > cart[index].product.quantity then Err(ExceedsStockSnapshot)
    else Ok(cart[index := cart[index].(cartQuantity := n)])
  }

  /** `clearCart()`: the empty cart, whose badge shows 0. */
  function ClearCart(): (r: Cart)
    ensures ValidCart(r) && CartCount(r) == 0 && |r| == 0
  {
    []
  }

  /** A line's stock figure is a snapshot: a product added with 5 in stock
      and again after a restock to 10 ends up wanting 8 against a recorded
      stock of 5, and the as-written update then refuses to lower it to 7. */
  lemma StaleSnapshotRefusesDecrement()
    ensures var pen := Product("p1", "Pen", Some(""), "Stationery", 5, 1.0);
            var restocked := pen.(quantity := 10);
            var first := AddToCart([], pen, Num(5));
            first == Ok([CartEntry(pen, 5)])
            && AddToCart(first.value, restocked, Num(3)) == Ok([CartEntry(pen, 8)])
            && UpdateCartQuantityAsWritten([CartEntry(pen, 8)], 0, -1) == Err(ExceedsStockSnapshot)
            && UpdateCartQuantity([CartEntry(pen, 8)], 0, -1) == Ok([CartEntry(pen, 7)])
  {
    var pen := Product("p1", "Pen", Some(""), "Stationery", 5, 1.0);
    var restocked := pen.(quantity := 10);
    var first := AddToCart([], pen, Num(5));
    assert !InCart([], "p1");
    assert [] + [CartEntry(pen, 5)] == [CartEntry(pen, 5)];
    assert first == Ok([CartEntry(pen, 5)]);
    assert FindIndex([CartEntry(pen, 5)], "p1") == 0;
    assert [CartEntry(pen, 5)][0 := CartEntry(pen, 8)] == [CartEntry(pen, 8)];
    assert AddToCart(first.value, restocked, Num(3)) == Ok([CartEntry(pen, 8)]);
    assert [CartEntry(pen, 8)][0 := CartEntry(pen, 7)] == [CartEntry(pen, 7)];
  }

  // ---------------------------------------------------------------------------
  // Badge count and the cart invariant

  lemma {:induction false} CartCountAppend(a: Cart, b: Cart)
    ensures CartCount(a + b) == CartCount(a) + CartCount(b)
  {
    if a == [] {
      assert a + b == b;
    } else {
      assert (a + b)[1..] == a[1..] + b;
      CartCountAppend(a[1..], b);
    }
  }

  lemma CartCountSplit(cart: Cart, i: int)
    requires 0 <= i < |cart|
    ensures CartCount(cart) == CartCount(cart[..i]) + cart[i].cartQuantity + CartCount(cart[i + 1..])
  {
    var front, back := cart[..i], cart[i + 1..];
    var tail := [cart[i]] + back;
    assert cart == front + tail;
    CartCountAppend(front, tail);
    assert tail[1..] == back;
    assert CartCount(tail) == cart[i].cartQuantity + CartCount(back);
  }

  /** Changing one line's quantity changes the badge by the same amount. */
  lemma CartCountUpdate(cart: Cart, i: int, n: int)
    requires 0 <= i < |cart|
    ensures CartCount(cart[i := cart[i].(cartQuantity := n)]) == CartCount(cart) - cart[i].cartQuantity + n
  {
    var updated := cart[i := cart[i].(cartQuantity := n)];
    CartCountSplit(cart, i);
    CartCountSplit(updated, i);
    assert updated[..i] == cart[..i];
    assert updated[i + 1..] == cart[i + 1..];
  }

  /** Removing a line lowers the badge by that line's quantity. */
  lemma CartCountRemove(cart: Cart, i: int)
    requires 0 <= i < |cart|
    ensures CartCount(RemoveFromCart(cart, i)) == CartCount(cart) - cart[i].cartQuantity
  {
    CartCountSplit(cart, i);
    CartCountAppend(cart[..i], cart[i + 1..]);
  }

  /** A successful add raises the badge by exactly the quantity added. */
  lemma AddToCartCount(cart: Cart, product: Product, requested: Parsed<int>)
    requires AddToCart(cart, product, requested).Ok?
    ensures CartCount(AddToCart(cart, product, requested).value)
            == CartCount(cart) + requested.value
  {
    var q := requested.value;
    var i := FindIndex(cart, product.id);
    if i > -1 {
      var n := cart[i].cartQuantity + q;
      assert AddToCart(cart, product, requested).value == cart[i := cart[i].(cartQuantity := n)];
      CartCountUpdate(cart, i, n);
    } else {
      assert AddToCart(cart, product, requested).value == cart + [CartEntry(product, q)];
      CartCountAppend(cart, [CartEntry(product, q)]);
      assert [CartEntry(product, q)][1..] == [];
    }
  }

  /** Adding keeps one line per product, every line wanting at least one. */
  lemma AddToCartKeepsValid(cart: Cart, product: Product, requested: Parsed<int>)
    requires ValidCart(cart)
    requires AddToCart(cart, product, requested).Ok?
    ensures ValidCart(AddToCart(cart, product, requested).value)
  {
    var r := AddToCart(cart, product, requested).value;
    var i := FindIndex(cart, product.id);
    if i == -1 {
      assert forall k :: 0 <= k < |cart| ==> r[k] == cart[k];
      assert r[|cart|].product.id == product.id;
    }
  }

  lemma RemoveFromCartKeepsValid(cart: Cart, index: int)
    requires ValidCart(cart) && 0 <= index < |cart|
    ensures ValidCart(RemoveFromCart(cart, index))
  {
    var r := RemoveFromCart(cart, index);
    forall i, j | 0 <= i < j < |r|
      ensures r[i].product.id != r[j].product.id
    {
      var i' := if i < index then i else i + 1;
      var j' := if j < index then j else j + 1;
      assert r[i] == cart[i'] && r[j] == cart[j'];
    }
  }

  /** Changing a quantity either removes the line or leaves a line wanting at
      least one; the product set is unchanged apart from a removal. */
  lemma UpdateCartQuantityKeepsValid(cart: Cart, index: int, change: int)
    requires ValidCart(cart) && 0 <= index < |cart|
    ensures UpdateCartQuantity(cart, index, change).Ok? ==> ValidCart(UpdateCartQuantity(cart, index, change).value)
    ensures UpdateCartQuantityAsWritten(cart, index, change).Ok?
            ==> ValidCart(UpdateCartQuantityAsWritten(cart, index, change).value)
  {
    if cart[index].cartQuantity + change < 1 {
      RemoveFromCartKeepsValid(cart, index);
    }
  }

  /** With the corrected update, a line's quantity can always be lowered by
      one, and the badge drops by one or the line goes. */
  lemma DecrementAlwaysAccepted(cart: Cart, index: int)
    requires ValidCart(cart) && 0 <= index < |cart|
    ensures UpdateCartQuantity(cart, index, -1).Ok?
    ensures CartCount(UpdateCartQuantity(cart, index, -1).value) == CartCount(cart) - 1
  {
    if cart[index].cartQuantity - 1 < 1 {
      CartCountRemove(cart, index);
    } else {
      CartCountUpdate(cart, index, cart[index].cartQuantity - 1);
    }
  }

  // ---------------------------------------------------------------------------
  // Placing an order

  datatype ShippingInfo = ShippingInfo(
    name: string, address: string, city: string, state: string, pincode: string, phone: string)

  /** All six shipping fields are non-empty. */
  predicate ShippingComplete(s: ShippingInfo)
  {
    s.name != "" && s.address != "" && s.city != "" && s.state != "" && s.pincode != "" && s.phone != ""
  }

  /** One line of the order request body: the product id and the quantity. */
  datatype OrderLine = OrderLine(item: string, quantity: int)

  datatype OrderPayload = OrderPayload(items: seq<OrderLine>, shippingAddress: ShippingInfo)

  datatype OrderError = MissingShipping | EmptyCart

  function OrderLines(cart: Cart): (lines: seq<OrderLine>)
    ensures |lines| == |cart|
    ensures forall i :: 0 <= i < |cart| ==>
              lines[i].item == cart[i].product.id && lines[i].quantity == cart[i].cartQuantity
  {
    if cart == [] then [] else [OrderLine(cart[0].product.id, cart[0].cartQuantity)] + OrderLines(cart[1..])
  }

  /** The request `placeOrder()` would send: shipping fields are checked
      first, then the cart must be non-empty; the body lists the cart's lines
      in order. */
  function OrderRequest(cart: Cart, shipping: ShippingInfo): (r: Result<OrderPayload, OrderError>)
    ensures !ShippingComplete(shipping) ==> r == Err(MissingShipping)
    ensures ShippingComplete(shipping) && cart == [] ==> r == Err(EmptyCart)
    ensures ShippingComplete(shipping) && cart != [] ==>
              r.Ok? && r.value.shippingAddress == shipping && |r.value.items| == |cart|
              && forall i :: 0 <= i < |cart| ==>
                   r.value.items[i] == OrderLine(cart[i].product.id, cart[i].cartQuantity)
  {
    if !ShippingComplete(shipping) then Err(MissingShipping)
    else if |cart| == 0 then Err(EmptyCart)
    else Ok(OrderPayload(OrderLines(cart), shipping))
  }

  function LinesQuantity(lines: seq<OrderLine>): int
  {
    if lines == [] then 0 else lines[0].quantity + LinesQuantity(lines[1..])
  }

  /** The units requested by the order are exactly the units the badge shows. */
  lemma {:induction false} OrderLinesMatchCount(cart: Cart)
    ensures LinesQuantity(OrderLines(cart)) == CartCount(cart)
  {
    if cart != [] {
      OrderLinesMatchCount(cart[1..]);
      assert OrderLines(cart)[1..] == OrderLines(cart[1..]);
    }
  }

  datatype PlaceOutcome = Rejected(reason: OrderError) | Failed | Placed

  /** The server's answer to the order request: a non-ok status, an ok
      response whose body is not JSON, or an ok JSON body, which may or may
      not carry the `order` object whose number the page then shows. */
  datatype OrderReply = NotOk(status: int) | Unreadable | Body(hasOrder: bool)

  /** `placeOrder()`: invalid input is refused with no request; otherwise the
      request is sent, and the cart is emptied only when the response is ok
      and its JSON carries `order`. Every other answer throws before
      `clearCart()` and keeps the cart. */
  function PlaceOrder(cart: Cart, shipping: ShippingInfo, reply: OrderReply): (r: (Cart, PlaceOutcome))
    ensures OrderRequest(cart, shipping).Err? ==> r.1 == Rejected(OrderRequest(cart, shipping).error)
    ensures r.1 == Placed <==> OrderRequest(cart, shipping).Ok? && reply == Body(true)
    ensures r.1 == Placed ==> r.0 == []
    ensures r.1 != Placed ==> r.0 == cart
  {
    match OrderRequest(cart, shipping)
    case Err(e) => (cart, Rejected(e))
    case Ok(_) =>
      match reply
      case Body(true) => (ClearCart(), Placed)
      case _ => (cart, Failed)
  }

  /** A placed order empties the cart, and the badge then shows 0; the units
      ordered are the units the badge showed before. */
  lemma PlacedOrderResetsBadge(cart: Cart, shipping: ShippingInfo, reply: OrderReply)
    requires PlaceOrder(cart, shipping, reply).1 == Placed
    ensures CartCount(PlaceOrder(cart, shipping, reply).0) == 0
    ensures LinesQuantity(OrderRequest(cart, shipping).value.items) == CartCount(cart)
  {
    OrderLinesMatchCount(cart);
  }

  // ---------------------------------------------------------------------------
  // Product search

  /** The search test of `filterProducts` for one product, against the
      already lower-cased `term`. The name is tested first; only when it
      does not match is the description lower-cased, and a null description
      then throws a TypeError, written None. */
  function SearchMatch(p: Product, term: string): (r: Option<bool>)
    ensures r.None? <==> !Includes(ToLower(p.name), term) && p.description.None?
    ensures r == Some(true) <==>
              Includes(ToLower(p.name), term)
              || (p.description.Some? && Includes(ToLower(p.description.value), term))
  {
    if Includes(ToLower(p.name), term) then Some(true)
    else match p.description
      case None => None
      case Some(d) => Some(Includes(ToLower(d), term))
  }

  /** Testing `p` against the search text throws. */
  predicate SearchThrows(p: Product, search: string)
  {
    SearchMatch(p, ToLower(search)).None?
  }

  /** A product passes the filter when the lower-cased search text occurs in
      its lower-cased name or description, and its category is the chosen
      one (an empty choice means every category). */
  predicate MatchesFilter(p: Product, search: string, category: string)
  {
    SearchMatch(p, ToLower(search)) == Some(true) && (category == "" || p.category == category)
  }

  /** `filterProducts()`: the matching products, each as often as it occurs,
      in catalogue order; None when testing some product throws, in which
      case the page keeps showing what it showed before. */
  function FilterProducts(products: seq<Product>, search: string, category: string): (r: Option<seq<Product>>)
    ensures r.None? <==> exists p :: p in products && SearchThrows(p, search)
    ensures r.Some? ==> IsSubsequence(r.value, products)
    ensures r.Some? ==> forall p :: p in r.value <==> p in products && MatchesFilter(p, search, category)
    ensures r.Some? ==> forall p ::
              multiset(r.value)[p] == if MatchesFilter(p, search, category) then multiset(products)[p] else 0
  {
    if products == [] then Some([])
    else
      var head := products[0];
      var rest := FilterProducts(products[1..], search, category);
      assert products == [head] + products[1..];
      assert forall p :: p in products <==> p == head || p in products[1..];
      if SearchThrows(head, search) || rest.None? then None
      else if MatchesFilter(head, search, category) then
        assert ([head] + rest.value)[1..] == rest.value;
        Some([head] + rest.value)
      else rest
  }

  /** Case folding is not limited to ASCII: searching for `ä` finds `Ä`. */
  lemma SearchFoldsLatinLetters()
    ensures MatchesFilter(Product("p", "\U{00C4}rmel", None, "c", 1, 1.0), "\U{00E4}", "")
  {
    var name := "\U{00C4}rmel";
    assert ToLower(name)[0] == '\U{00E4}';
    assert StartsWith(ToLower(name), "\U{00E4}");
  }

  /** Searching for "ά" finds a product named "Άλφα": accented Greek capitals are lowered too. */
  lemma SearchFoldsGreekAccents()
    ensures MatchesFilter(Product("p", "\U{0386}\U{03BB}\U{03C6}\U{03B1}", None, "c", 1, 1.0), "\U{03AC}", "")
  {
    var name := "\U{0386}\U{03BB}\U{03C6}\U{03B1}";
    assert ToLower(name)[0] == '\U{03AC}';
    assert StartsWith(ToLower(name), "\U{03AC}");
  }

  /** One product whose name misses the search text and whose description is
      null aborts the whole filter, whatever the other products are. */
  lemma NullDescriptionAbortsFilter(products: seq<Product>, i: int, search: string, category: string)
    requires 0 <= i < |products| && products[i].description.None?
    requires !Includes(ToLower(products[i].name), ToLower(search))
    ensures FilterProducts(products, search, category).None?
  {
    assert SearchThrows(products[i], search);
  }

  /** With no search text and no category every product is shown. */
  lemma {:induction false} FilterWithoutCriteriaKeepsAll(products: seq<Product>)
    ensures FilterProducts(products, "", "") == Some(products)
  {
    if products != [] {
      IncludesEmpty(ToLower(products[0].name));
      FilterWithoutCriteriaKeepsAll(products[1..]);
      assert products == [products[0]] + products[1..];
    }
  }
}

=== FILE: common.dfy ===
/** Shared vocabulary: optional values, JavaScript's NaN-or-number results,
    and the handful of JavaScript string built-ins the application relies on
    (trim, toLowerCase, includes, endsWith, parseInt, number-to-string). */
module Common {

  datatype Option<+T> = None | Some(value: T)

  datatype Result<+T, +E> = Ok(value: T) | Err(error: E)

  /** What `parseInt` / `parseFloat` hand back: a number, or NaN. */
  datatype Parsed<+T> = NaN | Num(value: T)

  /** JavaScript truthiness of a string slot that may be null: null and "" are falsy. */
  predicate Truthy(s: Option<string>)
  {
    s.Some? && s.value != ""
  }

  /** `parseInt(x) || 0`: NaN and 0 are falsy, so both become 0. */
  function IntOrZero(p: Parsed<int>): (r: int)
    ensures p.Num? ==> r == p.value
    ensures p.NaN? ==> r == 0
  {
    if p.NaN? || p.value == 0 then 0 else p.value
  }

  /** `parseFloat(x) || 0`. */
  function RealOrZero(p: Parsed<real>): (r: real)
    ensures p.Num? ==> r == p.value
    ensures p.NaN? ==> r == 0.0
  {
    if p.NaN? || p.value == 0.0 then 0.0 else p.value
  }

  /** `a` is `b` with some elements dropped, the rest kept in order. */
  predicate IsSubsequence<T(==)>(a: seq<T>, b: seq<T>)
    decreases |b|
  {
    a == [] || (b != [] && ((a[0] == b[0] && IsSubsequence(a[1..], b[1..])) || IsSubsequence(a, b[1..])))
  }

  /** `Array.prototype.filter`: the elements satisfying `f`, each kept as
      often as it occurs, in their original order. */
  function Filter<T(==,!new)>(s: seq<T>, f: T -> bool): (r: seq<T>)
    ensures IsSubsequence(r, s)
    ensures forall x :: x in r <==> x in s && f(x)
    ensures forall x :: multiset(r)[x] == if f(x) then multiset(s)[x] else 0
  {
    if s == [] then []
    else
      var rest := Filter(s[1..], f);
      assert s == [s[0]] + s[1..];
      if f(s[0]) then
        assert ([s[0]] + rest)[1..] == rest;
        [s[0]] + rest
      else rest
  }

  /** The positions of `s` whose element satisfies `f`. */
  function Positions<T>(s: seq<T>, f: T -> bool): set<int>
  {
    set i | 0 <= i < |s| && f(s[i])
  }

  /** A filter keeps exactly as many elements as there are satisfying positions. */
  lemma FilterCount<T(!new)>(s: seq<T>, f: T -> bool)
    ensures |Filter(s, f)| == |Positions(s, f)|
  {
    FilterCountFrom(s, f, 0);
    forall i | 0 <= i < |s|
      ensures HoldsAt(s, f, 0, i) == f(s[i])
    {
    }
    assert Positions(s, f) == PositionsFrom(s, f, 0);
  }

  /** Whether position `i` of `s`, numbered from `offset`, satisfies `f`. */
  predicate HoldsAt<T>(s: seq<T>, f: T -> bool, offset: int, i: int)
  {
    offset <= i < offset + |s| && f(s[i - offset])
  }

  /** The satisfying positions of `s`, numbered from `offset`. */
  function PositionsFrom<T>(s: seq<T>, f: T -> bool, offset: int): set<int>
  {
    set i | offset <= i < offset + |s| && HoldsAt(s, f, offset, i)
  }

  lemma {:induction false} FilterCountFrom<T(!new)>(s: seq<T>, f: T -> bool, offset: int)
    ensures |Filter(s, f)| == |PositionsFrom(s, f, offset)|
  {
    if s == [] {
      assert PositionsFrom(s, f, offset) == {};
    } else {
      FilterCountFrom(s[1..], f, offset + 1);
      PositionsFromSplit(s, f, offset);
      assert offset !in PositionsFrom(s[1..], f, offset + 1);
    }
  }

  /** The positions of a non-empty sequence: perhaps the first, then those of its tail. */
  lemma PositionsFromSplit<T>(s: seq<T>, f: T -> bool, offset: int)
    requires s != []
    ensures PositionsFrom(s, f, offset)
            == (if f(s[0]) then {offset} else {}) + PositionsFrom(s[1..], f, offset + 1)
  {
    forall i | offset + 1 <= i < offset + |s|
      ensures HoldsAt(s[1..], f, offset + 1, i) == HoldsAt(s, f, offset, i)
    {
      assert s[1..][i - (offset + 1)] == s[i - offset];
    }
  }

  // ---------------------------------------------------------------------------
  // Characters

  /** The characters `String.prototype.trim` and `parseInt` skip: ECMAScript's
      WhiteSpace and LineTerminator productions. */
  const WhitespaceChars: set<char> := {
    ' ', '\t', '\n', '\r', '\U{000B}', '\U{000C}', '\U{00A0}', '\U{1680}',
    '\U{2000}', '\U{2001}', '\U{2002}', '\U{2003}', '\U{2004}', '\U{2005}',
    '\U{2006}', '\U{2007}', '\U{2008}', '\U{2009}', '\U{200A}',
    '\U{2028}', '\U{2029}', '\U{202F}', '\U{205F}', '\U{3000}', '\U{FEFF}'
  }

  predicate IsWhitespace(c: char)
  {
    c in WhitespaceChars
  }

  predicate IsDigit(c: char)
  {
    '0' <= c <= '9'
  }

  function DigitValue(c: char): (d: nat)
    requires IsDigit(c)
    ensures d < 10
  {
    c as int - '0' as int
  }

  function DigitChar(d: nat): (c: char)
    requires d < 10
    ensures IsDigit(c) && DigitValue(c) == d
  {
    ('0' as int + d) as char
  }

  /** Case mapping of `toLowerCase` for the upper-case letters that map to a
      single lower-case letter in these blocks: Basic Latin, Latin-1,
      Latin Extended-A, Greek U+0386–U+03EF and Cyrillic U+0400–U+04FF.
      `İ` (which lowers to two characters) and `Σ` (whose lower form depends
      on its position in a word) are left as they are, as is every other
      character. */
  function LowerChar(c: char): (r: char)
    ensures 'A' <= c <= 'Z' ==> 'a' <= r <= 'z' && r as int == c as int + 32
    ensures 'a' <= c <= 'z' || IsDigit(c) || IsWhitespace(c) ==> r == c
    ensures c as int < 0x80 ==> r as int < 0x80
    ensures '\U{00C0}' <= c <= '\U{00DE}' && c != '\U{00D7}' ==> r as int == c as int + 32
    ensures '\U{0391}' <= c <= '\U{03AB}' && c != '\U{03A2}' && c != '\U{03A3}' ==> r as int == c as int + 32
    ensures '\U{0410}' <= c <= '\U{042F}' ==> r as int == c as int + 32
    ensures '\U{0400}' <= c <= '\U{040F}' ==> r as int == c as int + 80
    ensures c == '\U{0386}' ==> r == '\U{03AC}'
    ensures '\U{0388}' <= c <= '\U{038A}' ==> r as int == c as int + 37
    ensures c == '\U{038C}' ==> r == '\U{03CC}'
    ensures '\U{038E}' <= c <= '\U{038F}' ==> r as int == c as int + 63
    ensures c == '\U{0178}' ==> r == '\U{00FF}'
    ensures (('\U{0100}' <= c <= '\U{012F}' || '\U{0460}' <= c <= '\U{0481}' || '\U{04D0}' <= c <= '\U{04FF}')
             && c as int % 2 == 0) ==> r as int == c as int + 1
  {
    var n := c as int;
    if 'A' <= c <= 'Z' || ('\U{00C0}' <= c <= '\U{00DE}' && c != '\U{00D7}') then (n + 32) as char
    // Greek: the accented capitals, the main alphabet with Ϊ and Ϋ, Ϗ
    else if c == '\U{0386}' then (n + 38) as char
    else if '\U{0388}' <= c <= '\U{038A}' then (n + 37) as char
    else if c == '\U{038C}' then (n + 64) as char
    else if '\U{038E}' <= c <= '\U{038F}' then (n + 63) as char
    else if '\U{0391}' <= c <= '\U{03AB}' && c != '\U{03A2}' && c != '\U{03A3}' then (n + 32) as char
    else if c == '\U{03CF}' then '\U{03D7}'
    // Cyrillic: the main alphabet, the Ѐ–Џ row, and palochka
    else if '\U{0410}' <= c <= '\U{042F}' then (n + 32) as char
    else if '\U{0400}' <= c <= '\U{040F}' then (n + 80) as char
    else if c == '\U{04C0}' then '\U{04CF}'
    else if c == '\U{0178}' then '\U{00FF}'
    // capital and small letter side by side, the capital first
    else if (('\U{0100}' <= c <= '\U{012F}' || '\U{0132}' <= c <= '\U{0137}' || '\U{014A}' <= c <= '\U{0177}'
              || '\U{03D8}' <= c <= '\U{03EF}' || '\U{0460}' <= c <= '\U{0481}' || '\U{048A}' <= c <= '\U{04BF}'
              || '\U{04D0}' <= c <= '\U{04FF}') && n % 2 == 0)
         || (('\U{0139}' <= c <= '\U{0148}' || '\U{0179}' <= c <= '\U{017E}' || '\U{04C1}' <= c <= '\U{04CE}') && n % 2 == 1)
    then (n + 1) as char
    else c
  }

  /** A lowered character lowers to itself: lower-case letters are never mapped. */
  lemma LowerCharIdempotent(c: char)
    ensures LowerChar(LowerChar(c)) == LowerChar(c)
  {
  }

  function ToLower(s: string): (r: string)
    ensures |r| == |s|
    ensures forall k :: 0 <= k < |s| ==> r[k] == LowerChar(s[k])
  {
    if s == [] then [] else [LowerChar(s[0])] + ToLower(s[1..])
  }

  /** Lower-casing twice is lower-casing once. */
  lemma ToLowerIdempotent(s: string)
    ensures ToLower(ToLower(s)) == ToLower(s)
  {
    forall k | 0 <= k < |s|
      ensures ToLower(ToLower(s))[k] == ToLower(s)[k]
    {
      LowerCharIdempotent(s[k]);
    }
  }

  // ---------------------------------------------------------------------------
  // Substring tests

  predicate StartsWith(s: string, prefix: string)
  {
    |prefix| <= |s| && s[..|prefix|] == prefix
  }

  predicate EndsWith(s: string, suffix: string)
  {
    |suffix| <= |s| && s[|s| - |suffix|..] == suffix
  }

  /** `s.includes(t)`: `t` occurs somewhere in `s`. */
  predicate Includes(s: string, t: string)
    decreases |s|
  {
    |t| <= |s| && (StartsWith(s, t) || Includes(s[1..], t))
  }

  /** Every string includes the empty string, so an empty search term matches anything. */
  lemma IncludesEmpty(s: string)
    ensures Includes(s, "")
  {
    assert StartsWith(s, "");
  }

  /** A suffix is in particular a substring. */
  lemma {:induction false} EndsWithIncludes(s: string, t: string)
    requires EndsWith(s, t)
    ensures Includes(s, t)
    decreases |s|
  {
    if |s| == |t| {
      assert s[..|t|] == s[|s| - |t|..];
    } else {
      assert s[1..][|s| - 1 - |t|..] == s[|s| - |t|..];
      EndsWithIncludes(s[1..], t);
    }
  }

  /** `t` occurs in `s` starting at offset `i`. */
  predicate OccursAt(s: string, t: string, i: int)
  {
    0 <= i <= |s| - |t| && s[i..i + |t|] == t
  }

  /** Inclusion means an occurrence at a concrete offset. */
  lemma {:induction false} IncludesAt(s: string, t: string)
    requires Includes(s, t)
    ensures exists i :: OccursAt(s, t, i)
    decreases |s|
  {
    if StartsWith(s, t) {
      assert OccursAt(s, t, 0);
    } else {
      IncludesAt(s[1..], t);
      var i :| OccursAt(s[1..], t, i);
      assert s[i + 1..i + 1 + |t|] == s[1..][i..i + |t|];
      assert OccursAt(s, t, i + 1);
    }
  }

  // ---------------------------------------------------------------------------
  // trim

  /** How many whitespace characters open `s`. */
  function LeadingSpace(s: string): (n: nat)
    ensures n <= |s|
    ensures forall k :: 0 <= k < n ==> IsWhitespace(s[k])
    ensures n == |s| || !IsWhitespace(s[n])
  {
    if s != [] && IsWhitespace(s[0]) then 1 + LeadingSpace(s[1..]) else 0
  }

  /** Where the whitespace that closes `s` begins. */
  function TrailingSpaceStart(s: string): (n: nat)
    ensures n <= |s|
    ensures forall k :: n <= k < |s| ==> IsWhitespace(s[k])
    ensures n == 0 || !IsWhitespace(s[n - 1])
  {
    if s != [] && IsWhitespace(s[|s| - 1]) then TrailingSpaceStart(s[..|s| - 1]) else |s|
  }

  /** `String.prototype.trim`: the text between the leading and the trailing
      whitespace; empty exactly when the string is nothing but whitespace. */
  function Trim(s: string): (r: string)
    ensures exists i :: OccursAt(s, r, i)
                        && (forall k :: 0 <= k < i ==> IsWhitespace(s[k]))
                        && (forall k :: i + |r| <= k < |s| ==> IsWhitespace(s[k]))
    ensures r == [] || (!IsWhitespace(r[0]) && !IsWhitespace(r[|r| - 1]))
    ensures r == [] <==> forall k :: 0 <= k < |s| ==> IsWhitespace(s[k])
  {
    var start := LeadingSpace(s);
    var rest := s[start..];
    var len := TrailingSpaceStart(rest);
    TrimBlankOnlyIfWhitespace(s, start, len);
    TrimBlankIfWhitespace(s, start, len);
    assert OccursAt(s, s[start..start + len], start);
    assert len > 0 ==> s[start + len - 1] == rest[len - 1];
    s[start..start + len]
  }

  /** Trimming twice is trimming once. */
  lemma TrimIdempotent(s: string)
    ensures Trim(Trim(s)) == Trim(s)
  {
    var r := Trim(s);
    assert LeadingSpace(r) == 0;
    assert r[0..] == r;
    assert TrailingSpaceStart(r) == |r|;
    assert r[0..|r|] == r;
  }

  /** Nothing left after trimming means nothing but whitespace... */
  lemma TrimBlankOnlyIfWhitespace(s: string, start: nat, len: nat)
    requires start == LeadingSpace(s) && len == TrailingSpaceStart(s[start..])
    ensures len == 0 ==> forall k :: 0 <= k < |s| ==> IsWhitespace(s[k])
  {
    assert start < |s| ==> s[start..][0] == s[start];
  }

  /** ...and nothing but whitespace leaves nothing. */
  lemma TrimBlankIfWhitespace(s: string, start: nat, len: nat)
    requires start == LeadingSpace(s) && len == TrailingSpaceStart(s[start..])
    ensures (forall k :: 0 <= k < |s| ==> IsWhitespace(s[k])) ==> len == 0
  {
    assert len > 0 ==> s[start..][len - 1] == s[start + len - 1];
  }

  // ---------------------------------------------------------------------------
  // parseInt and number-to-string

  /** Length of the run of decimal digits at the head of `s`. */
  function LeadingDigits(s: string): (n: nat)
    ensures n <= |s|
    ensures forall k :: 0 <= k < n ==> IsDigit(s[k])
    ensures n == |s| || !IsDigit(s[n])
  {
    if s != [] && IsDigit(s[0]) then 1 + LeadingDigits(s[1..]) else 0
  }

  /** The value of a string of decimal digits, most significant first. */
  function DigitsValue(d: string): nat
    requires forall k :: 0 <= k < |d| ==> IsDigit(d[k])
  {
    if d == [] then 0 else 10 * DigitsValue(d[..|d| - 1]) + DigitValue(d[|d| - 1])
  }

  /** `parseInt(text)` with the radix left out, for decimal text: skip leading
      whitespace, take an optional sign, then the longest run of digits; NaN
      when there is no digit. */
  function ParseInt(text: string): Parsed<int>
  {
    var s := text[LeadingSpace(text)..];
    var negative := s != [] && s[0] == '-';
    var body := if s != [] && (s[0] == '-' || s[0] == '+') then s[1..] else s;
    var n := LeadingDigits(body);
    if n == 0 then NaN
    else
      var magnitude: int := DigitsValue(body[..n]);
      Num(if negative then -magnitude else magnitude)
  }

  /** Digits and the minus sign are not whitespace, so `parseInt` skips nothing before them. */
  lemma NotWhitespace(c: char)
    requires IsDigit(c) || c == '-'
    ensures !IsWhitespace(c)
  {
  }

  /** An empty field does not parse. */
  lemma ParseIntEmpty()
    ensures ParseInt("") == NaN
  {
  }

  /** A field of decimal digits parses to the value they spell. */
  lemma ParseIntDigits(text: string)
    requires text != [] && forall k :: 0 <= k < |text| ==> IsDigit(text[k])
    ensures ParseInt(text) == Num(DigitsValue(text))
  {
    NotWhitespace(text[0]);
    assert LeadingSpace(text) == 0;
    assert text[0..] == text;
    assert text[0] != '-' && text[0] != '+';
    assert LeadingDigits(text) == |text|;
    assert text[..|text|] == text;
  }

  /** Decimal text of a natural number, as `Number.prototype.toString` writes it. */
  function NatToString(n: nat): (s: string)
    ensures s != []
    ensures forall k :: 0 <= k < |s| ==> IsDigit(s[k])
  {
    if n < 10 then [DigitChar(n)] else NatToString(n / 10) + [DigitChar(n % 10)]
  }

  /** Decimal text of an integer; negative numbers get a leading '-'. */
  function IntToString(n: int): (s: string)
    ensures s != []
    ensures s[0] == '-' <==> n < 0
    ensures forall k :: 0 < k < |s| ==> IsDigit(s[k])
  {
    if n < 0 then "-" + NatToString(-n) else NatToString(n)
  }

  lemma {:induction false} NatToStringValue(n: nat)
    ensures DigitsValue(NatToString(n)) == n
  {
    if n >= 10 {
      var s := NatToString(n);
      assert s[..|s| - 1] == NatToString(n / 10);
      NatToStringValue(n / 10);
    }
  }

  /** Writing a number into a form field and reading it back with `parseInt`
      returns the same number. */
  lemma ParseIntOfIntToString(n: int)
    ensures ParseInt(IntToString(n)) == Num(n)
  {
    var text := IntToString(n);
    var digits := NatToString(if n < 0 then -n else n);
    NotWhitespace(text[0]);
    assert LeadingSpace(text) == 0;
    var body := if n < 0 then text[1..] else text;
    assert body == digits;
    assert LeadingDigits(body) == |digits|;
    assert body[..|digits|] == digits;
    NatToStringValue(if n < 0 then -n else n);
  }

  /** The coercion `parseInt(x) || 0` never yields NaN and is the identity on
      a number's own decimal text. */
  lemma IntOrZeroOfIntToString(n: int)
    ensures IntOrZero(ParseInt(IntToString(n))) == n
  {
    ParseIntOfIntToString(n);
  }
}

=== FILE: dashboard.dfy ===
/** The admin dashboard (frontend/script.js): stock status of each row, the
    low-stock counter and alert panel, the add/edit item form and its
    submission, and the availability toggle. */
module Dashboard {
  import opened Common

  /** An inventory item as the dashboard receives it from the API; a NULL
      description arrives as `null`. */
  datatype Item = Item(
    id: string, name: string, description: Option<string>, category: string,
    quantity: int, price: real, minStock: int, isAvailable: bool)

  // ---------------------------------------------------------------------------
  // Stock status, counter and alert

  datatype StockStatus = OutOfStock | LowStock | InStock

  /** `getStockStatus(quantity, minStock)`: empty stock first, then at or
      below the minimum, otherwise in stock. */
  function GetStockStatus(quantity: int, minStock: int): (r: StockStatus)
    ensures r == OutOfStock <==> quantity == 0
    ensures r == LowStock <==> quantity != 0 && quantity <= minStock
    ensures r == InStock <==> quantity != 0 && quantity > minStock
  {
    if quantity == 0 then OutOfStock
    else if quantity <= minStock then LowStock
    else InStock
  }

  /** The filter both the counter and the alert panel use. */
  predicate IsLowStock(item: Item)
  {
    item.quantity <= item.minStock
  }

  /** `items.filter(item => item.quantity <= item.min_stock)`: the low
      items, each as often as it occurs, in list order. */
  function LowStockItems(items: seq<Item>): (r: seq<Item>)
    ensures IsSubsequence(r, items)
    ensures forall x :: multiset(r)[x] == if IsLowStock(x) then multiset(items)[x] else 0
    ensures forall x :: x in r <==> x in items && IsLowStock(x)
    ensures |r| == |Positions(items, IsLowStock)|
  {
    FilterCount(items, IsLowStock);
    Filter(items, IsLowStock)
  }

  /** The two figures `updateStats(items)` writes: item total and low-stock count. */
  datatype Stats = Stats(totalItems: int, lowStockCount: int)

  function UpdateStats(items: Option<seq<Item>>): (r: Stats)
    ensures items.None? ==> r == Stats(0, 0)
    ensures items.Some? ==> r.totalItems == |items.value|
    ensures items.Some? ==> r.lowStockCount == |Positions(items.value, IsLowStock)|
    ensures items.Some? ==> (r.lowStockCount == 0 <==> forall x :: x in items.value ==> !IsLowStock(x))
  {
    match items
    case None => Stats(0, 0)
    case Some(s) =>
      var low := LowStockItems(s);
      assert low != [] ==> low[0] in low;
      Stats(|s|, |low|)
  }

  /** What `checkLowStock(items)` does with the alert panel. */
  datatype AlertPanel = Hidden | Shown(alerts: seq<Item>)

  function CheckLowStock(items: Option<seq<Item>>): (r: AlertPanel)
    ensures r.Shown? <==> items.Some? && exists x :: x in items.value && IsLowStock(x)
    ensures r.Shown? ==> IsSubsequence(r.alerts, items.value)
    ensures r.Shown? ==> forall x :: multiset(r.alerts)[x] == if IsLowStock(x) then multiset(items.value)[x] else 0
    ensures r.Shown? ==> forall x :: x in r.alerts <==> x in items.value && IsLowStock(x)
  {
    var low := if items.Some? then LowStockItems(items.value) else [];
    assert low != [] ==> low[0] in low;
    if |low| > 0 then Shown(low) else Hidden
  }

  /** The counter and the alert panel agree: the panel is shown exactly when
      the counter is positive, and then lists as many items as it counts. */
  lemma CounterMatchesAlerts(items: Option<seq<Item>>)
    ensures CheckLowStock(items).Shown? <==> UpdateStats(items).lowStockCount > 0
    ensures CheckLowStock(items).Shown? ==> |CheckLowStock(items).alerts| == UpdateStats(items).lowStockCount
  {
  }

  /** With a non-negative minimum, a row is coloured out-of-stock or low-stock
      exactly when it is counted in the low-stock alert. */
  lemma StatusAgreesWithAlert(item: Item)
    requires item.minStock >= 0
    ensures GetStockStatus(item.quantity, item.minStock) != InStock <==> IsLowStock(item)
  {
  }

  /** Every out-of-stock item of a list with non-negative minimums is among the alerts. */
  lemma OutOfStockIsAlerted(items: seq<Item>, item: Item)
    requires item in items && item.minStock >= 0
    requires GetStockStatus(item.quantity, item.minStock) == OutOfStock
    ensures CheckLowStock(Some(items)).Shown?
    ensures item in CheckLowStock(Some(items)).alerts
  {
    assert IsLowStock(item);
  }

  // ---------------------------------------------------------------------------
  // Add / edit form

  /** The form's fields as typed. The price field is given already parsed
      (`parseFloat` is not modelled); the integer fields are raw text. */
  datatype ItemForm = ItemForm(
    name: string, description: string, category: string,
    quantity: string, price: Parsed<real>, minStock: string)

  /** The JSON body `handleSubmit` builds. */
  datatype ItemPayload = ItemPayload(
    name: string, description: string, category: string,
    quantity: Parsed<int>, price: Parsed<real>, minStock: Parsed<int>)

  /** Trim the text fields and coerce the numbers with `parse(...) || 0`. */
  function FormPayload(form: ItemForm): (p: ItemPayload)
    ensures p.quantity.Num? && p.price.Num? && p.minStock.Num?
    ensures p.name == Trim(form.name) && p.description == Trim(form.description)
    ensures p.category == Trim(form.category)
    ensures form.price.Num? ==> p.price == form.price
    ensures form.price.NaN? ==> p.price == Num(0.0)
    ensures ParseInt(form.quantity).NaN? ==> p.quantity == Num(0)
    ensures ParseInt(form.minStock).NaN? ==> p.minStock == Num(0)
    ensures p.name == "" <==> forall k :: 0 <= k < |form.name| ==> IsWhitespace(form.name[k])
    ensures p.category == "" <==> forall k :: 0 <= k < |form.category| ==> IsWhitespace(form.category[k])
    ensures ParseInt(form.quantity).Num? ==> p.quantity == ParseInt(form.quantity)
    ensures ParseInt(form.minStock).Num? ==> p.minStock == ParseInt(form.minStock)
  {
    ItemPayload(
      Trim(form.name), Trim(form.description), Trim(form.category),
      Num(IntOrZero(ParseInt(form.quantity))), Num(RealOrZero(form.price)),
      Num(IntOrZero(ParseInt(form.minStock))))
  }

  /** The request the form submission sends. */
  datatype ItemRequest = ItemRequest(verb: string, url: string, body: ItemPayload)

  /** The items collection under the API base `/api`. */
  const ItemsUrl: string := "/api/items"

  const MissingFieldsMessage: string := "Please fill in all required fields"

  /** `handleSubmit`: refuse when a required field is missing (the NaN
      checks can never fire after the coercion), otherwise PUT to the item
      being edited or POST a new one. */
  function HandleSubmit(editingId: Option<string>, form: ItemForm): (r: Result<ItemRequest, string>)
    ensures r.Err? <==> (forall k :: 0 <= k < |form.name| ==> IsWhitespace(form.name[k]))
                        || (forall k :: 0 <= k < |form.category| ==> IsWhitespace(form.category[k]))
    ensures r.Err? ==> r.error == MissingFieldsMessage
    ensures r.Ok? ==> r.value.body == FormPayload(form)
    ensures r.Ok? && Truthy(editingId) ==> r.value.verb == "PUT" && r.value.url == ItemsUrl + "/" + editingId.value
    ensures r.Ok? && !Truthy(editingId) ==> r.value.verb == "POST" && r.value.url == ItemsUrl
  {
    var data := FormPayload(form);
    if data.name == "" || data.category == "" || data.quantity.NaN? || data.price.NaN? then
      Err(MissingFieldsMessage)
    else if Truthy(editingId) then
      Ok(ItemRequest("PUT", ItemsUrl + "/" + editingId.value, data))
    else
      Ok(ItemRequest("POST", ItemsUrl, data))
  }

  /** The item modal: which item is being edited, the form, and whether it is open. */
  datatype Modal = Modal(editingId: Option<string>, form: ItemForm, visible: bool)

  /** `showModal(item)`: editing an item fills the form from it (numbers
      written as text); adding resets the form to `defaults`, the page's
      own initial field values. */
  function ShowModal(item: Option<Item>, defaults: ItemForm): (m: Modal)
    ensures m.visible
    ensures item.None? ==> m.editingId.None? && m.form == defaults
    ensures item.Some? ==> m.editingId == Some(item.value.id)
    ensures item.Some? ==> m.form.name == item.value.name && m.form.category == item.value.category
    ensures item.Some? && item.value.description.Some? ==> m.form.description == item.value.description.value
    ensures item.Some? && item.value.description.None? ==> m.form.description == ""
  {
    match item
    case None => Modal(None, defaults, true)
    case Some(it) =>
      Modal(Some(it.id),
            ItemForm(it.name, if it.description.Some? then it.description.value else "", it.category,
                     IntToString(it.quantity), Num(it.price), IntToString(it.minStock)),
            true)
  }

  /** `hideModal()`: closes the modal, forgets the edited item, resets the form. */
  function HideModal(m: Modal, defaults: ItemForm): (r: Modal)
    ensures !r.visible && r.editingId.None? && r.form == defaults
  {
    Modal(None, defaults, false)
  }

  /** Opening an item for editing and saving without touching the fields
      sends that item's own numbers back, to that item's URL. */
  lemma EditWithoutChangesKeepsNumbers(item: Item, defaults: ItemForm)
    ensures var r := HandleSubmit(ShowModal(Some(item), defaults).editingId, ShowModal(Some(item), defaults).form);
            r.Ok? ==>
            var req := r.value;
            && req.body.quantity == Num(item.quantity)
            && req.body.minStock == Num(item.minStock)
            && req.body.price == Num(item.price)
            && (item.id != "" ==> req.verb == "PUT" && req.url == ItemsUrl + "/" + item.id)
  {
    IntOrZeroOfIntToString(item.quantity);
    IntOrZeroOfIntToString(item.minStock);
  }

  /** After the modal is closed, the next submission creates a new item. */
  lemma SubmitAfterHidePosts(m: Modal, defaults: ItemForm, form: ItemForm)
    ensures var r := HandleSubmit(HideModal(m, defaults).editingId, form);
            r.Ok? ==> r.value.verb == "POST" && r.value.url == ItemsUrl
  {
  }

  // ---------------------------------------------------------------------------
  // Availability toggle

  /** The body `toggleAvailability` sends with its PUT. */
  datatype AvailabilityUpdate = AvailabilityUpdate(
    name: string, description: Option<string>, category: string,
    quantity: int, price: real, minStock: int, isAvailable: bool)

  /** A full-replace update of an item with a request body's fields. */
  function ApplyUpdate(item: Item, u: AvailabilityUpdate): Item
  {
    item.(name := u.name, description := u.description, category := u.category,
          quantity := u.quantity, price := u.price, minStock := u.minStock,
          isAvailable := u.isAvailable)
  }

  /** `toggleAvailability(itemId, isAvailable)`: the freshly fetched item's
      fields, unchanged, with the new availability. */
  function TogglePayload(current: Item, isAvailable: bool): (u: AvailabilityUpdate)
    ensures u.isAvailable == isAvailable
    ensures ApplyUpdate(current, u) == current.(isAvailable := isAvailable)
  {
    AvailabilityUpdate(current.name, current.description, current.category,
                       current.quantity, current.price, current.minStock, isAvailable)
  }
}

=== FILE: html.dfy ===
/** The `escapeHtml` helper shared by the customer page and the admin
    dashboard: a chain of five global replaces, ampersand first. */
module Html {
  import opened Common

  /** The entity each special character is rewritten to; every other
      character stands for itself. */
  function Entity(c: char): string
  {
    match c
    case '&' => "&amp;"
    case '<' => "&lt;"
    case '>' => "&gt;"
    case '"' => "&quot;"
    case '\'' => "&#039;"
    case _ => [c]
  }

  /** The per-character reference definition of escaping. */
  function EscapeChars(s: string): string
  {
    if s == [] then [] else Entity(s[0]) + EscapeChars(s[1..])
  }

  /** `s.replace(/c/g, rep)`: every occurrence of `c` becomes `rep`. */
  function ReplaceAll(s: string, c: char, rep: string): string
  {
    if s == [] then [] else (if s[0] == c then rep else [s[0]]) + ReplaceAll(s[1..], c, rep)
  }

  /** The five replaces in the order `escapeHtml` applies them: `&` first, then the later steps. */
  function ReplaceChain(s: string): string
  {
    StepsAfter(ReplaceAll(s, '&', "&amp;"), 1)
  }

  /** `escapeHtml(unsafe)`: a falsy argument (null, undefined, "") gives "";
      otherwise the replace chain, which is the per-character escape. */
  function EscapeHtml(unsafe: Option<string>): (r: string)
    ensures !Truthy(unsafe) ==> r == ""
    ensures Truthy(unsafe) ==> r == EscapeChars(unsafe.value)
    ensures '<' !in r && '>' !in r && '"' !in r && '\'' !in r
  {
    if !Truthy(unsafe) then ""
    else
      ReplaceChainIsEscape(unsafe.value);
      EscapeCharsHasNoSpecials(unsafe.value);
      ReplaceChain(unsafe.value)
  }

  /** No escaped text contains a raw `<`, `>`, `"` or `'`. */
  lemma {:induction false} EscapeCharsHasNoSpecials(s: string)
    ensures '<' !in EscapeChars(s) && '>' !in EscapeChars(s)
    ensures '"' !in EscapeChars(s) && '\'' !in EscapeChars(s)
  {
    if s != [] {
      EscapeCharsHasNoSpecials(s[1..]);
      EntityHasNoSpecials(s[0]);
      var e, rest := Entity(s[0]), EscapeChars(s[1..]);
      assert EscapeChars(s) == e + rest;
      assert forall x :: x in e + rest <==> x in e || x in rest;
    }
  }

  /** No entity contains a raw `<`, `>`, `"` or `'`. */
  lemma EntityHasNoSpecials(c: char)
    ensures '<' !in Entity(c) && '>' !in Entity(c)
    ensures '"' !in Entity(c) && '\'' !in Entity(c)
  {
  }

  lemma ReplaceAllSingle(c: char, d: char, rep: string)
    ensures ReplaceAll([c], d, rep) == if c == d then rep else [c]
  {
    assert [c][1..] == [];
  }

  lemma {:induction false} ReplaceAllAbsent(s: string, c: char, rep: string)
    requires c !in s
    ensures ReplaceAll(s, c, rep) == s
  {
    if s != [] {
      ReplaceAllAbsent(s[1..], c, rep);
    }
  }

  lemma {:induction false} ReplaceAllAppend(a: string, b: string, c: char, rep: string)
    ensures ReplaceAll(a + b, c, rep) == ReplaceAll(a, c, rep) + ReplaceAll(b, c, rep)
  {
    if a == [] {
      assert a + b == b;
    } else {
      assert (a + b)[1..] == a[1..] + b;
      ReplaceAllAppend(a[1..], b, c, rep);
    }
  }

  lemma ReplaceChainAppend(a: string, b: string)
    ensures ReplaceChain(a + b) == ReplaceChain(a) + ReplaceChain(b)
  {
    var a1, b1 := ReplaceAll(a, '&', "&amp;"), ReplaceAll(b, '&', "&amp;");
    ReplaceAllAppend(a, b, '&', "&amp;");
    var a2, b2 := ReplaceAll(a1, '<', "&lt;"), ReplaceAll(b1, '<', "&lt;");
    ReplaceAllAppend(a1, b1, '<', "&lt;");
    var a3, b3 := ReplaceAll(a2, '>', "&gt;"), ReplaceAll(b2, '>', "&gt;");
    ReplaceAllAppend(a2, b2, '>', "&gt;");
    var a4, b4 := ReplaceAll(a3, '"', "&quot;"), ReplaceAll(b3, '"', "&quot;");
    ReplaceAllAppend(a3, b3, '"', "&quot;");
    ReplaceAllAppend(a4, b4, '\'', "&#039;");
  }

  /** On one character the chain produces exactly that character's entity:
      the entities introduced by earlier steps contain none of the
      characters later steps rewrite. */
  lemma ReplaceChainChar(c: char)
    ensures ReplaceChain([c]) == Entity(c)
  {
    ReplaceAllSingle(c, '&', "&amp;");
    if c == '&' {
      LaterStepsKeep("&amp;", 1);
    } else {
      ReplaceAllSingle(c, '<', "&lt;");
      if c == '<' {
        LaterStepsKeep("&lt;", 2);
      } else {
        ReplaceAllSingle(c, '>', "&gt;");
        if c == '>' {
          LaterStepsKeep("&gt;", 3);
        } else {
          ReplaceAllSingle(c, '"', "&quot;");
          if c == '"' {
            LaterStepsKeep("&quot;", 4);
          } else {
            ReplaceAllSingle(c, '\'', "&#039;");
          }
        }
      }
    }
  }

  /** The chain's steps after step `k`, applied to `s`. */
  function StepsAfter(s: string, k: nat): string
  {
    var s2 := if k < 2 then ReplaceAll(s, '<', "&lt;") else s;
    var s3 := if k < 3 then ReplaceAll(s2, '>', "&gt;") else s2;
    var s4 := if k < 4 then ReplaceAll(s3, '"', "&quot;") else s3;
    if k < 5 then ReplaceAll(s4, '\'', "&#039;") else s4
  }

  /** An entity contains none of the characters rewritten after it. */
  lemma LaterStepsKeep(e: string, k: nat)
    requires 1 <= k <= 4
    requires '<' !in e && '>' !in e && '"' !in e && '\'' !in e
    ensures StepsAfter(e, k) == e
  {
    ReplaceAllAbsent(e, '<', "&lt;");
    ReplaceAllAbsent(e, '>', "&gt;");
    ReplaceAllAbsent(e, '"', "&quot;");
    ReplaceAllAbsent(e, '\'', "&#039;");
  }

  /** Because `&` is replaced first, the chain of replaces equals the
      per-character map: no entity is escaped twice. */
  lemma {:induction false} ReplaceChainIsEscape(s: string)
    ensures ReplaceChain(s) == EscapeChars(s)
  {
    if s != [] {
      assert s == [s[0]] + s[1..];
      ReplaceChainAppend([s[0]], s[1..]);
      ReplaceChainChar(s[0]);
      ReplaceChainIsEscape(s[1..]);
    }
  }
}

=== FILE: item_table.dfy ===
/** The live routes of backend/server.js over the single `items` table,
    with the table held as a sequence of rows in rowid order and the
    AUTOINCREMENT counter SQLite keeps for it. */
module ItemTable {
  import opened Common
  import opened Sorting

  /** One row of `items`. `description` and `min_stock` are the nullable
      columns; `created_at` is the insertion time stamp. */
  datatype Row = Row(
    id: int, name: string, description: Option<string>, category: string,
    quantity: int, price: real, minStock: Option<int>, createdAt: int)

  /** The rows, and the largest id ever handed out (the table's
      `sqlite_sequence` entry). */
  datatype Table = Table(rows: seq<Row>, sequence: int)

  /** A request-body field: left out (`undefined`), `null`, or a value. */
  datatype JsonField<+T> = Absent | Null | Present(value: T)

  datatype ItemBody = ItemBody(
    name: JsonField<string>, description: JsonField<string>, category: JsonField<string>,
    quantity: JsonField<int>, price: JsonField<real>, minStock: JsonField<int>)

  /** The route's answer: the new id, a plain success message, 400 or 500. */
  datatype Reply = Created(id: int) | Done | BadRequest | ServerError

  datatype Outcome = Outcome(table: Table, reply: Reply)

  /** Ids are distinct and positive, and none exceeds the counter. */
  predicate ValidTable(t: Table)
  {
    (forall i, j :: 0 <= i < j < |t.rows| ==> t.rows[i].id != t.rows[j].id)
    && (forall row :: row in t.rows ==> 1 <= row.id <= t.sequence)
  }

  predicate HasId(t: Table, id: int)
  {
    exists row :: row in t.rows && row.id == id
  }

  // ---------------------------------------------------------------------------
  // Field coercions

  /** JavaScript truthiness of a text field. */
  predicate TruthyText(f: JsonField<string>)
  {
    f.Present? && f.value != ""
  }

  /** How the driver binds a field: `undefined` and `null` both become SQL NULL. */
  function Bind<T>(f: JsonField<T>): (r: Option<T>)
    ensures r.Some? <==> f.Present?
    ensures f.Present? ==> r.value == f.value
  {
    if f.Present? then Some(f.value) else None
  }

  /** `description || ''`. */
  function DescriptionOrEmpty(f: JsonField<string>): (r: string)
    ensures TruthyText(f) ==> r == f.value
    ensures !TruthyText(f) ==> r == ""
  {
    if TruthyText(f) then f.value else ""
  }

  /** `min_stock || 0`. */
  function MinStockOrZero(f: JsonField<int>): (r: int)
    ensures f.Present? ==> r == f.value
    ensures !f.Present? ==> r == 0
  {
    if f.Present? && f.value != 0 then f.value else 0
  }

  // ---------------------------------------------------------------------------
  // POST /api/items

  /** The largest id in use, or 0 for an empty table. */
  function MaxId(rows: seq<Row>): (m: int)
    ensures m >= 0
    ensures forall row :: row in rows ==> row.id <= m
    ensures m == 0 || exists row :: row in rows && row.id == m
  {
    if rows == [] then 0
    else
      var rest := MaxId(rows[1..]);
      assert forall row :: row in rows ==> row == rows[0] || row in rows[1..];
      if rows[0].id > rest then rows[0].id else rest
  }

  /** The AUTOINCREMENT choice: one more than the larger of the counter and
      the largest id present. */
  function NextId(t: Table): (id: int)
    ensures id > t.sequence && id >= 1
    ensures forall row :: row in t.rows ==> row.id < id
  {
    1 + (if t.sequence > MaxId(t.rows) then t.sequence else MaxId(t.rows))
  }

  /** The route's own check, before any SQL runs. */
  predicate CreateAccepted(body: ItemBody)
  {
    TruthyText(body.name) && TruthyText(body.category)
    && !body.quantity.Absent? && !body.price.Absent?
  }

  /** `POST /api/items` at time `now`. */
  function CreateItem(t: Table, body: ItemBody, now: int): (r: Outcome)
    ensures !CreateAccepted(body) ==> r == Outcome(t, BadRequest)
    ensures CreateAccepted(body) && (body.quantity.Null? || body.price.Null?) ==> r == Outcome(t, ServerError)
    ensures r.reply.Created? <==> CreateAccepted(body) && body.quantity.Present? && body.price.Present?
    ensures !r.reply.Created? ==> r.table == t
    ensures r.reply.Created? ==>
              && r.reply.id > t.sequence
              && (forall row :: row in t.rows ==> row.id < r.reply.id)
              && r.table.sequence == r.reply.id
              && |r.table.rows| == |t.rows| + 1
              && r.table.rows[..|t.rows|] == t.rows
              && var row := r.table.rows[|t.rows|];
                 && row.id == r.reply.id
                 && row.name == body.name.value && row.category == body.category.value
                 && row.quantity == body.quantity.value && row.price == body.price.value
                 && row.description == Some(DescriptionOrEmpty(body.description))
                 && row.minStock == Some(MinStockOrZero(body.minStock))
                 && row.createdAt == now
  {
    if !CreateAccepted(body) then Outcome(t, BadRequest)
    else if !body.quantity.Present? || !body.price.Present? then Outcome(t, ServerError)
    else
      var id := NextId(t);
      var row := Row(id, body.name.value, Some(DescriptionOrEmpty(body.description)),
                     body.category.value, body.quantity.value, body.price.value,
                     Some(MinStockOrZero(body.minStock)), now);
      assert (t.rows + [row])[..|t.rows|] == t.rows;
      Outcome(Table(t.rows + [row], id), Created(id))
  }

  lemma CreateKeepsValid(t: Table, body: ItemBody, now: int)
    requires ValidTable(t)
    ensures ValidTable(CreateItem(t, body, now).table)
  {
    var r := CreateItem(t, body, now);
    if r.reply.Created? {
      var rows := r.table.rows;
      assert rows == t.rows + [rows[|t.rows|]];
      forall i, j | 0 <= i < j < |rows|
        ensures rows[i].id != rows[j].id
      {
        if j == |t.rows| {
          assert rows[i] in t.rows;
        }
      }
    }
  }

  /** SQLite does not hand out a deleted row's id again. */
  lemma DeletedIdNotReused(t: Table, id: int, body: ItemBody, now: int)
    requires ValidTable(t) && HasId(t, id)
    ensures var r := CreateItem(DeleteItem(t, Some(id)).table, body, now);
            r.reply.Created? ==> r.reply.id != id
  {
  }

  // ---------------------------------------------------------------------------
  // PUT /api/items/:id and DELETE /api/items/:id

  /** The path id, as SQLite compares it with the integer `id` column: the
      number it converts to, or None when it is not an integer literal. */
  predicate Matches(row: Row, key: Option<int>)
  {
    key.Some? && row.id == key.value
  }

  /** A NOT NULL column would be set to NULL. */
  predicate ViolatesNotNull(body: ItemBody)
  {
    !body.name.Present? || !body.category.Present? || !body.quantity.Present? || !body.price.Present?
  }

  /** The row after `SET name=?, description=?, ... , min_stock=?`. */
  function Assign(row: Row, body: ItemBody): (r: Row)
    requires !ViolatesNotNull(body)
    ensures r.id == row.id && r.createdAt == row.createdAt
    ensures r.name == body.name.value && r.category == body.category.value
    ensures r.quantity == body.quantity.value && r.price == body.price.value
    ensures r.description == Bind(body.description) && r.minStock == Bind(body.minStock)
  {
    row.(name := body.name.value, description := Bind(body.description),
         category := body.category.value, quantity := body.quantity.value,
         price := body.price.value, minStock := Bind(body.minStock))
  }

  function AssignMatching(rows: seq<Row>, key: Option<int>, body: ItemBody): (r: seq<Row>)
    requires !ViolatesNotNull(body)
    ensures |r| == |rows|
    ensures forall i :: 0 <= i < |rows| && !Matches(rows[i], key) ==> r[i] == rows[i]
    ensures forall i :: 0 <= i < |rows| && Matches(rows[i], key) ==> r[i] == Assign(rows[i], body)
  {
    if rows == [] then []
    else [if Matches(rows[0], key) then Assign(rows[0], body) else rows[0]]
         + AssignMatching(rows[1..], key, body)
  }

  /** `PUT /api/items/:id`: success is reported whether or not a row
      matched; a missing required field only fails once a row is hit. */
  function UpdateItem(t: Table, key: Option<int>, body: ItemBody): (r: Outcome)
    ensures (forall row :: row in t.rows ==> !Matches(row, key)) ==> r == Outcome(t, Done)
    ensures r.reply == ServerError <==> ViolatesNotNull(body) && exists row :: row in t.rows && Matches(row, key)
    ensures r.reply != ServerError ==> r.reply == Done
    ensures r.reply == ServerError ==> r.table == t
    ensures r.table.sequence == t.sequence && |r.table.rows| == |t.rows|
    ensures forall i :: 0 <= i < |t.rows| && !Matches(t.rows[i], key) ==> r.table.rows[i] == t.rows[i]
    ensures r.reply == Done ==>
              (forall i :: 0 <= i < |t.rows| && Matches(t.rows[i], key) ==> r.table.rows[i] == Assign(t.rows[i], body))
  {
    if forall row :: row in t.rows ==> !Matches(row, key) then
      assert forall i :: 0 <= i < |t.rows| ==> !Matches(t.rows[i], key) by {
        forall i | 0 <= i < |t.rows| ensures !Matches(t.rows[i], key) {
          assert t.rows[i] in t.rows;
        }
      }
      Outcome(t, Done)
    else if ViolatesNotNull(body) then Outcome(t, ServerError)
    else Outcome(t.(rows := AssignMatching(t.rows, key, body)), Done)
  }

  lemma UpdateKeepsValid(t: Table, key: Option<int>, body: ItemBody)
    requires ValidTable(t)
    ensures ValidTable(UpdateItem(t, key, body).table)
  {
    var r := UpdateItem(t, key, body);
    forall row | row in r.table.rows
      ensures 1 <= row.id <= t.sequence
    {
      var i :| 0 <= i < |r.table.rows| && r.table.rows[i] == row;
      assert t.rows[i] in t.rows;
    }
  }

  /** Rows whose id differs from `key`, in their order, each as often as it is stored. */
  function KeepOthers(rows: seq<Row>, key: Option<int>): (r: seq<Row>)
    ensures IsSubsequence(r, rows)
    ensures forall row :: row in r <==> row in rows && !Matches(row, key)
    ensures forall row :: multiset(r)[row] == if Matches(row, key) then 0 else multiset(rows)[row]
  {
    Filter(rows, row => !Matches(row, key))
  }

  /** `DELETE /api/items/:id`: success whether or not the row existed. */
  function DeleteItem(t: Table, key: Option<int>): (r: Outcome)
    ensures r.reply == Done
    ensures r.table.sequence == t.sequence
    ensures IsSubsequence(r.table.rows, t.rows)
    ensures forall row :: row in r.table.rows <==> row in t.rows && !Matches(row, key)
    ensures forall row :: multiset(r.table.rows)[row] == if Matches(row, key) then 0 else multiset(t.rows)[row]
  {
    Outcome(t.(rows := KeepOthers(t.rows, key)), Done)
  }

  /** A subsequence of distinct ids has distinct ids. */
  lemma {:induction false} SubsequenceKeepsDistinct(a: seq<Row>, b: seq<Row>)
    requires IsSubsequence(a, b)
    requires forall i, j :: 0 <= i < j < |b| ==> b[i].id != b[j].id
    ensures forall i, j :: 0 <= i < j < |a| ==> a[i].id != a[j].id
    decreases |b|
  {
    if a != [] {
      if a[0] == b[0] && IsSubsequence(a[1..], b[1..]) {
        SubsequenceKeepsDistinct(a[1..], b[1..]);
        forall j | 0 < j < |a|
          ensures a[0].id != a[j].id
        {
          SubsequenceMembers(a[1..], b[1..]);
          assert a[j] == a[1..][j - 1];
          assert a[j] in a[1..];
          assert a[j] in b[1..];
          var k :| 0 <= k < |b[1..]| && b[1..][k] == a[j];
          assert b[k + 1] == a[j];
        }
      } else {
        SubsequenceKeepsDistinct(a, b[1..]);
      }
    }
  }

  lemma {:induction false} SubsequenceMembers(a: seq<Row>, b: seq<Row>)
    requires IsSubsequence(a, b)
    ensures forall x :: x in a ==> x in b
    decreases |b|
  {
    if a != [] {
      if a[0] == b[0] && IsSubsequence(a[1..], b[1..]) {
        SubsequenceMembers(a[1..], b[1..]);
        assert forall x :: x in a ==> x == a[0] || x in a[1..];
      } else {
        SubsequenceMembers(a, b[1..]);
      }
    }
  }

  lemma DeleteKeepsValid(t: Table, key: Option<int>)
    requires ValidTable(t)
    ensures ValidTable(DeleteItem(t, key).table)
  {
    SubsequenceKeepsDistinct(DeleteItem(t, key).table.rows, t.rows);
  }

  // ---------------------------------------------------------------------------
  // Queries

  function NewestFirst(row: Row): int
  {
    -row.createdAt
  }

  /** `GET /api/items`: every row, newest first. */
  function ListItems(t: Table): (r: seq<Row>)
    ensures multiset(r) == multiset(t.rows)
    ensures forall i, j :: 0 <= i < j < |r| ==> r[i].createdAt >= r[j].createdAt
  {
    var r := SortBy(t.rows, NewestFirst);
    assert forall i, j :: 0 <= i < j < |r| ==> NewestFirst(r[i]) <= NewestFirst(r[j]);
    r
  }

  /** The listing holds every row exactly once, and nothing else. */
  lemma ListItemsHasAllRows(t: Table)
    ensures |ListItems(t)| == |t.rows|
    ensures forall row :: row in ListItems(t) <==> row in t.rows
  {
    var r := ListItems(t);
    assert |multiset(r)| == |multiset(t.rows)|;
    forall row
      ensures row in r <==> row in t.rows
    {
      assert row in r <==> row in multiset(r);
      assert row in t.rows <==> row in multiset(t.rows);
    }
  }

  /** `WHERE quantity <= min_stock`: a NULL minimum matches nothing. */
  predicate LowStockRow(row: Row)
  {
    row.minStock.Some? && row.quantity <= row.minStock.value
  }

  function ByQuantity(row: Row): int
  {
    row.quantity
  }

  /** `GET /api/items/low-stock`: every row at or below its minimum, as
      often as it is stored, fewest in stock first. */
  function LowStockRows(t: Table): (r: seq<Row>)
    ensures forall i, j :: 0 <= i < j < |r| ==> r[i].quantity <= r[j].quantity
    ensures forall row :: multiset(r)[row] == if LowStockRow(row) then multiset(t.rows)[row] else 0
    ensures forall row :: row in r <==> row in t.rows && LowStockRow(row)
  {
    var low := Filter(t.rows, LowStockRow);
    var r := SortBy(low, ByQuantity);
    assert forall i, j :: 0 <= i < j < |r| ==> ByQuantity(r[i]) <= ByQuantity(r[j]);
    forall row
      ensures row in r <==> row in low
    {
      assert row in r <==> row in multiset(r);
      assert row in low <==> row in multiset(low);
    }
    r
  }

  /** The answer has one entry per stored low-stock row. */
  lemma LowStockRowsCount(t: Table)
    ensures |LowStockRows(t)| == |Positions(t.rows, LowStockRow)|
  {
    var low := Filter(t.rows, LowStockRow);
    assert |multiset(LowStockRows(t))| == |multiset(low)|;
    FilterCount(t.rows, LowStockRow);
  }

  /** `GET /api/categories`: the distinct categories in BINARY collation order. */
  function Categories(rows: seq<Row>): (r: seq<string>)
    ensures StrictlySorted(r)
    ensures forall c :: c in r <==> exists row :: row in rows && row.category == c
  {
    if rows == [] then []
    else
      var rest := Categories(rows[1..]);
      assert forall row :: row in rows <==> row == rows[0] || row in rows[1..];
      InsertDistinct(rows[0].category, rest)
  }

  /** Each category appears in the answer once. */
  lemma CategoriesOnce(rows: seq<Row>)
    ensures forall i, j :: 0 <= i < j < |Categories(rows)| ==> Categories(rows)[i] != Categories(rows)[j]
  {
    StrictlySortedDistinct(Categories(rows));
  }

  // ---------------------------------------------------------------------------
  // Start-up sample data

  const SampleItems: seq<ItemBody> := [
    ItemBody(Present("Laptop"), Present("Gaming Laptop 16GB RAM"), Present("Electronics"),
             Present(15), Present(999.99), Present(5)),
    ItemBody(Present("Mouse"), Present("Wireless Optical Mouse"), Present("Electronics"),
             Present(45), Present(25.50), Present(10)),
    ItemBody(Present("Notebook"), Present("A4 Size 100 pages"), Present("Stationery"),
             Present(8), Present(4.99), Present(15))
  ]

  function CreateAll(t: Table, bodies: seq<ItemBody>, now: int): Table
    decreases |bodies|
  {
    if bodies == [] then t else CreateAll(CreateItem(t, bodies[0], now).table, bodies[1..], now)
  }

  /** At start-up the three sample items are inserted into an empty table. */
  function Seed(t: Table, now: int): (r: Table)
    ensures t.rows != [] ==> r == t
  {
    if t.rows == [] then CreateAll(t, SampleItems, now) else t
  }

  /** A brand-new database gets the three sample items with ids 1, 2, 3. */
  lemma SeedFreshDatabase(now: int)
    ensures var t := Seed(Table([], 0), now);
            && t.sequence == 3
            && |t.rows| == 3
            && t.rows[0].id == 1 && t.rows[1].id == 2 && t.rows[2].id == 3
            && t.rows[0].name == "Laptop" && t.rows[1].name == "Mouse" && t.rows[2].name == "Notebook"
            && t.rows[0].quantity == 15 && t.rows[1].quantity == 45 && t.rows[2].quantity == 8
            && t.rows[0].minStock == Some(5) && t.rows[1].minStock == Some(10) && t.rows[2].minStock == Some(15)
  {
    var t0 := Table([], 0);
    var t1 := CreateItem(t0, SampleItems[0], now).table;
    var t2 := CreateItem(t1, SampleItems[1], now).table;
    var t3 := CreateItem(t2, SampleItems[2], now).table;
    SeedUnfolds(now);
    SamplesAccepted();
    assert t1.sequence == 1 && |t1.rows| == 1 && t1.rows[0].id == 1;
    assert t2.sequence == 2 && |t2.rows| == 2 && t2.rows[..1] == t1.rows && t2.rows[1].id == 2;
    assert t3.sequence == 3 && |t3.rows| == 3 && t3.rows[..2] == t2.rows && t3.rows[2].id == 3;
    assert t3.rows[0] == t2.rows[0] == t1.rows[0];
    assert t3.rows[1] == t2.rows[1];
  }

  /** Every sample item passes the route's check and has a quantity and a price. */
  lemma SamplesAccepted()
    ensures forall k :: 0 <= k < |SampleItems| ==>
              CreateAccepted(SampleItems[k]) && SampleItems[k].quantity.Present? && SampleItems[k].price.Present?
  {
  }

  /** Seeding an empty table is the three inserts in order. */
  lemma SeedUnfolds(now: int)
    ensures Seed(Table([], 0), now)
            == CreateItem(CreateItem(CreateItem(Table([], 0), SampleItems[0], now).table,
                                     SampleItems[1], now).table, SampleItems[2], now).table
  {
    var t0 := Table([], 0);
    var t1 := CreateItem(t0, SampleItems[0], now).table;
    var t2 := CreateItem(t1, SampleItems[1], now).table;
    var t3 := CreateItem(t2, SampleItems[2], now).table;
    assert CreateAll(t0, SampleItems, now) == CreateAll(t1, SampleItems[1..], now);
    assert CreateAll(t1, SampleItems[1..], now) == CreateAll(t2, SampleItems[2..], now);
    assert CreateAll(t2, SampleItems[2..], now) == CreateAll(t3, [], now);
  }

  /** Of the sample items only the notebook (8 in stock, minimum 15) starts
      below its minimum. */
  lemma SeedLowStock(now: int)
    ensures var t := Seed(Table([], 0), now);
            forall row :: row in LowStockRows(t) <==> row in t.rows && row.name == "Notebook"
  {
    SeedFreshDatabase(now);
    SampleLowStock(Seed(Table([], 0), now));
  }

  /** The low-stock query over a table holding the three sample rows. */
  lemma SampleLowStock(t: Table)
    requires |t.rows| == 3
    requires t.rows[0].name == "Laptop" && t.rows[1].name == "Mouse" && t.rows[2].name == "Notebook"
    requires t.rows[0].quantity == 15 && t.rows[1].quantity == 45 && t.rows[2].quantity == 8
    requires t.rows[0].minStock == Some(5) && t.rows[1].minStock == Some(10) && t.rows[2].minStock == Some(15)
    ensures forall row :: row in LowStockRows(t) <==> row in t.rows && row.name == "Notebook"
  {
    forall row
      ensures row in LowStockRows(t) <==> row in t.rows && row.name == "Notebook"
    {
      assert row in t.rows <==> row == t.rows[0] || row == t.rows[1] || row == t.rows[2];
    }
  }
}

=== FILE: react_app.dfy ===
/** The React admin page (frontend/src/App.js): its form state, editing and
    resetting, the numeric inputs, the PUT-or-POST submission, and its copy
    of the stock classification. Requests are expressed in the item table's
    own terms so that what the page sends can be followed into the table. */
module ReactApp {
  import opened Common
  import Dashboard
  import ItemTable

  /** The form. `minStock` is None when an edited row's `min_stock` is NULL. */
  datatype FormData = FormData(
    name: string, description: string, category: string,
    quantity: int, price: real, minStock: Option<int>)

  datatype AppState = AppState(formData: FormData, editingItem: Option<ItemTable.Row>, showForm: bool)

  /** The form's initial and reset contents. */
  const EmptyForm: FormData := FormData("", "", "", 0, 0.0, Some(0))

  /** `handleEdit(item)`: the row's fields in the form, `description`
      defaulting to '', the row marked as being edited, the form shown. */
  function HandleEdit(state: AppState, item: ItemTable.Row): (r: AppState)
    ensures r.editingItem == Some(item) && r.showForm
    ensures r.formData.name == item.name && r.formData.category == item.category
    ensures r.formData.quantity == item.quantity && r.formData.price == item.price
    ensures r.formData.minStock == item.minStock
    ensures item.description.Some? ==> r.formData.description == item.description.value
    ensures item.description.None? ==> r.formData.description == ""
  {
    var description := if item.description.Some? then item.description.value else "";
    AppState(FormData(item.name, description, item.category, item.quantity, item.price, item.minStock),
             Some(item), true)
  }

  /** `resetForm()`: empty form, nothing being edited, form hidden. */
  function ResetForm(state: AppState): (r: AppState)
    ensures r.formData == EmptyForm && r.editingItem.None? && !r.showForm
  {
    AppState(EmptyForm, None, false)
  }

  /** The quantity input: `parseInt(value) || 0`; only the quantity changes. */
  function OnQuantityInput(state: AppState, text: string): (r: AppState)
    ensures r == state.(formData := r.formData)
    ensures r.formData == state.formData.(quantity := r.formData.quantity)
    ensures ParseInt(text).Num? ==> r.formData.quantity == ParseInt(text).value
    ensures ParseInt(text).NaN? ==> r.formData.quantity == 0
  {
    state.(formData := state.formData.(quantity := IntOrZero(ParseInt(text))))
  }

  /** The price input: `parseFloat(value) || 0`, given the parsed value. */
  function OnPriceInput(state: AppState, parsed: Parsed<real>): (r: AppState)
    ensures r == state.(formData := state.formData.(price := r.formData.price))
    ensures parsed.Num? ==> r.formData.price == parsed.value
    ensures parsed.NaN? ==> r.formData.price == 0.0
  {
    state.(formData := state.formData.(price := RealOrZero(parsed)))
  }

  /** The minimum-stock input: `parseInt(value) || 0`; never leaves it empty. */
  function OnMinStockInput(state: AppState, text: string): (r: AppState)
    ensures r == state.(formData := state.formData.(minStock := r.formData.minStock))
    ensures r.formData.minStock.Some?
    ensures ParseInt(text).Num? ==> r.formData.minStock == Some(ParseInt(text).value)
    ensures ParseInt(text).NaN? ==> r.formData.minStock == Some(0)
  {
    state.(formData := state.formData.(minStock := Some(IntOrZero(ParseInt(text)))))
  }

  /** The JSON body: every field present, `min_stock` null when it is. */
  function RequestBody(f: FormData): (b: ItemTable.ItemBody)
    ensures b.name == ItemTable.Present(f.name) && b.category == ItemTable.Present(f.category)
    ensures b.description == ItemTable.Present(f.description)
    ensures b.quantity == ItemTable.Present(f.quantity) && b.price == ItemTable.Present(f.price)
    ensures f.minStock.Some? ==> b.minStock == ItemTable.Present(f.minStock.value)
    ensures f.minStock.None? ==> b.minStock == ItemTable.Null
  {
    ItemTable.ItemBody(
      ItemTable.Present(f.name), ItemTable.Present(f.description), ItemTable.Present(f.category),
      ItemTable.Present(f.quantity), ItemTable.Present(f.price),
      if f.minStock.Some? then ItemTable.Present(f.minStock.value) else ItemTable.Null)
  }

  /** The request `handleSubmit` sends: PUT to the edited row's id, else POST. */
  datatype AppRequest = Put(id: int, body: ItemTable.ItemBody) | Post(body: ItemTable.ItemBody)

  function SubmitRequest(state: AppState): (r: AppRequest)
    ensures r.Put? <==> state.editingItem.Some?
    ensures r.Put? ==> r.id == state.editingItem.value.id
    ensures r.body == RequestBody(state.formData)
  {
    match state.editingItem
    case Some(item) => Put(item.id, RequestBody(state.formData))
    case None => Post(RequestBody(state.formData))
  }

  /** The state after the request settles: reset on success, kept on failure. */
  function AfterSubmit(state: AppState, succeeded: bool): (r: AppState)
    ensures succeeded ==> r == ResetForm(state)
    ensures !succeeded ==> r == state
  {
    if succeeded then ResetForm(state) else state
  }

  /** The page's own `getStockStatus`. A NULL minimum compares as 0, as
      `quantity <= null` does in JavaScript. */
  function GetStockStatus(quantity: int, minStock: Option<int>): (r: Dashboard.StockStatus)
    ensures quantity == 0 ==> r == Dashboard.OutOfStock
    ensures quantity != 0 && minStock.Some? ==>
              (r == Dashboard.LowStock <==> quantity <= minStock.value)
    ensures r == Dashboard.LowStock <==> quantity != 0 && quantity <= (if minStock.Some? then minStock.value else 0)
    ensures r == Dashboard.InStock <==> quantity != 0 && quantity > (if minStock.Some? then minStock.value else 0)
  {
    var m := if minStock.Some? then minStock.value else 0;
    if quantity == 0 then Dashboard.OutOfStock
    else if quantity <= m then Dashboard.LowStock
    else Dashboard.InStock
  }

  /** Both pages classify stock the same way. */
  lemma StockStatusAgrees(quantity: int, minStock: int)
    ensures GetStockStatus(quantity, Some(minStock)) == Dashboard.GetStockStatus(quantity, minStock)
    ensures GetStockStatus(quantity, None) == Dashboard.GetStockStatus(quantity, 0)
  {
  }

  // ---------------------------------------------------------------------------
  // Following the requests into the table

  /** The request applied to the table. */
  function Apply(t: ItemTable.Table, req: AppRequest, now: int): (r: ItemTable.Outcome)
    ensures req.Put? ==> r == ItemTable.UpdateItem(t, Some(req.id), req.body)
    ensures req.Post? ==> r == ItemTable.CreateItem(t, req.body, now)
  {
    match req
    case Put(id, body) => ItemTable.UpdateItem(t, Some(id), body)
    case Post(body) => ItemTable.CreateItem(t, body, now)
  }

  /** Opening a stored row for editing and saving it unchanged leaves the
      table as it was, provided the row's description is not NULL. */
  lemma EditAndSaveUnchangedIsNoOp(t: ItemTable.Table, item: ItemTable.Row, state: AppState, now: int)
    requires ItemTable.ValidTable(t) && item in t.rows && item.description.Some?
    ensures Apply(t, SubmitRequest(HandleEdit(state, item)), now) == ItemTable.Outcome(t, ItemTable.Done)
  {
    var body := RequestBody(HandleEdit(state, item).formData);
    var key := Some(item.id);
    var r := ItemTable.UpdateItem(t, key, body);
    assert !ItemTable.ViolatesNotNull(body);
    var i :| 0 <= i < |t.rows| && t.rows[i] == item;
    assert ItemTable.Matches(t.rows[i], key);
    assert r.reply == ItemTable.Done;
    forall j | 0 <= j < |t.rows|
      ensures r.table.rows[j] == t.rows[j]
    {
      if ItemTable.Matches(t.rows[j], key) {
        assert j == i;
      }
    }
    assert r.table.rows == t.rows;
  }

  /** Saving a row whose description is NULL stores '' in its place. */
  lemma EditAndSaveFillsNullDescription(t: ItemTable.Table, item: ItemTable.Row, state: AppState, now: int)
    requires ItemTable.ValidTable(t) && item in t.rows && item.description.None?
    ensures var r := Apply(t, SubmitRequest(HandleEdit(state, item)), now);
            && r.reply == ItemTable.Done
            && item.(description := Some("")) in r.table.rows
            && item !in r.table.rows
  {
    var body := RequestBody(HandleEdit(state, item).formData);
    var key := Some(item.id);
    var r := ItemTable.UpdateItem(t, key, body);
    var i :| 0 <= i < |t.rows| && t.rows[i] == item;
    assert ItemTable.Matches(t.rows[i], key);
    assert r.table.rows[i] == item.(description := Some(""));
    forall j | 0 <= j < |t.rows|
      ensures r.table.rows[j] != item
    {
      if ItemTable.Matches(t.rows[j], key) {
        assert j == i;
      } else {
        assert t.rows[j].id != item.id;
      }
    }
  }

  /** Submitting the untouched empty form creates nothing: the server
      refuses the empty name with 400. */
  lemma EmptyFormIsRefused(t: ItemTable.Table, state: AppState, now: int)
    ensures Apply(t, SubmitRequest(ResetForm(state)), now) == ItemTable.Outcome(t, ItemTable.BadRequest)
  {
  }
}

=== FILE: sorting.dfy ===
/** The two orderings the item table's queries ask SQLite for: rows ordered
    by an integer column, and text ordered by the BINARY collation
    (code-point order, which for UTF-8 text agrees with byte order). */
module Sorting {

  // ---------------------------------------------------------------------------
  // Ordering by an integer key

  predicate SortedBy<T>(s: seq<T>, key: T -> int)
  {
    forall i, j :: 0 <= i < j < |s| ==> key(s[i]) <= key(s[j])
  }

  function InsertBy<T>(x: T, s: seq<T>, key: T -> int): (r: seq<T>)
    requires SortedBy(s, key)
    ensures SortedBy(r, key)
    ensures multiset(r) == multiset(s) + multiset{x}
  {
    if s == [] then [x]
    else if key(x) <= key(s[0]) then [x] + s
    else
      var rest := InsertBy(x, s[1..], key);
      InsertByHead(x, s, key, rest);
      [s[0]] + rest
  }

  lemma InsertByHead<T>(x: T, s: seq<T>, key: T -> int, rest: seq<T>)
    requires s != [] && SortedBy(s, key) && key(s[0]) < key(x)
    requires SortedBy(rest, key) && multiset(rest) == multiset(s[1..]) + multiset{x}
    ensures SortedBy([s[0]] + rest, key)
    ensures multiset([s[0]] + rest) == multiset(s) + multiset{x}
  {
    assert s == [s[0]] + s[1..];
    forall j | 0 <= j < |rest|
      ensures key(s[0]) <= key(rest[j])
    {
      assert rest[j] in multiset(rest);
      if rest[j] != x {
        assert rest[j] in multiset(s[1..]);
        var k :| 0 <= k < |s[1..]| && s[1..][k] == rest[j];
        assert s[k + 1] == rest[j];
      }
    }
  }

  /** An ordering of `s` by ascending key. Rows with equal keys may come in
      any order, as with SQL's ORDER BY. */
  function SortBy<T>(s: seq<T>, key: T -> int): (r: seq<T>)
    ensures SortedBy(r, key)
    ensures multiset(r) == multiset(s)
  {
    if s == [] then []
    else
      assert s == [s[0]] + s[1..];
      InsertBy(s[0], SortBy(s[1..], key), key)
  }

  // ---------------------------------------------------------------------------
  // Text order

  /** Strict lexicographic order on code points; a proper prefix comes first. */
  predicate LexLess(a: string, b: string)
  {
    if a == [] then b != []
    else if b == [] then false
    else a[0] < b[0] || (a[0] == b[0] && LexLess(a[1..], b[1..]))
  }

  lemma {:induction false} LexLessIrreflexive(a: string)
    ensures !LexLess(a, a)
  {
    if a != [] {
      LexLessIrreflexive(a[1..]);
    }
  }

  lemma {:induction false} LexLessTransitive(a: string, b: string, c: string)
    requires LexLess(a, b) && LexLess(b, c)
    ensures LexLess(a, c)
  {
    if a != [] && b != [] && c != [] && a[0] == b[0] == c[0] {
      LexLessTransitive(a[1..], b[1..], c[1..]);
    }
  }

  lemma {:induction false} LexLessTotal(a: string, b: string)
    ensures a == b || LexLess(a, b) || LexLess(b, a)
  {
    if a != [] && b != [] && a[0] == b[0] {
      LexLessTotal(a[1..], b[1..]);
      if a[1..] == b[1..] {
        assert a == [a[0]] + a[1..] && b == [b[0]] + b[1..];
      }
    }
  }

  /** Strictly increasing text, hence free of repeats. */
  predicate StrictlySorted(s: seq<string>)
  {
    forall i, j :: 0 <= i < j < |s| ==> LexLess(s[i], s[j])
  }

  lemma StrictlySortedDistinct(s: seq<string>)
    requires StrictlySorted(s)
    ensures forall i, j :: 0 <= i < j < |s| ==> s[i] != s[j]
  {
    forall i, j | 0 <= i < j < |s|
      ensures s[i] != s[j]
    {
      LexLessIrreflexive(s[i]);
    }
  }

  /** Adds `x` to a strictly sorted list unless it is already there. */
  function InsertDistinct(x: string, s: seq<string>): (r: seq<string>)
    requires StrictlySorted(s)
    ensures StrictlySorted(r)
    ensures forall y :: y in r <==> y == x || y in s
  {
    if s == [] then [x]
    else if x == s[0] then s
    else if LexLess(x, s[0]) then
      assert forall j :: 0 < j < |s| ==> LexLess(x, s[j]) by {
        forall j | 0 < j < |s|
          ensures LexLess(x, s[j])
        {
          LexLessTransitive(x, s[0], s[j]);
        }
      }
      [x] + s
    else
      LexLessTotal(x, s[0]);
      var rest := InsertDistinct(x, s[1..]);
      assert s == [s[0]] + s[1..];
      assert forall j :: 0 <= j < |rest| ==> LexLess(s[0], rest[j]) by {
        forall j | 0 <= j < |rest|
          ensures LexLess(s[0], rest[j])
        {
          assert rest[j] in rest;
          if rest[j] != x {
            var k :| 0 <= k < |s[1..]| && s[1..][k] == rest[j];
            assert s[k + 1] == rest[j];
          }
        }
      }
      [s[0]] + rest
  }
}
